=== FILE: README.md ===
# LMS backend controllers in Dafny

This project models the request handlers of a learning-management backend.
The backend is an Express/Mongoose server. Courses hold ordered lecture lists.
Students buy courses through a payment gateway and are enrolled by the
gateway's webhook. Users register, log in and edit their profiles.

The four controllers are modelled as pure transitions:

- `controllers/lecture.controller.js`
- `controllers/course.controller.js`
- `controllers/purchase.course.controller.js`
- `controllers/user.controller.js`

Each handler is a Dafny function. It takes the document store and the request fields. It returns an `Outcome`, which holds:

- the response: a status, a message and a payload, or `Silent` when the handler sends none (its catch block only logs, or an error escapes it);
- the calls made to outside services: video/media deletion, the checkout request and cookies;
- the new store.

Modules, following the program's structure:

- `Db` (db.dfy): the collection primitives the handlers rely on.
  - `find` and `findOne` return documents in natural order. Natural order is modelled as ascending id, since ObjectIds grow with insertion time.
  - `$addToSet` and `$pull` are modelled on id arrays.
- `Models` (models.dfy): the four collections (`User`, `Course`, `Lecture`, `Purchase`) and the `Store` that maps ids to them.
- `Http` (http.dfy): responses, effects and request ids.
  - An id is `Absent`, `Malformed` (Mongoose throws a CastError) or `Given`.
  - `findById` is modelled on these three cases.
- `Text` (text.dfy): ASCII case folding, substring search, JavaScript's `split` and its inverse `Join`, and the media public-id extraction.
- `LectureController`, `CourseController`, `PurchaseController`, `UserController`: one module per controller file.
- `Properties` (properties.dfy): lemmas that relate several requests, including:
  - replaying the webhook;
  - the checkout-then-webhook flow;
  - register-then-login;
  - the store invariants the handlers keep (one active purchase per user and course, unique emails).

Outside services are oracles passed in as parameters:

- bcrypt is a pair of functions `hash` and `compare`. The only assumption made, and only where a property needs it, is that a password matches its own hash (`UserController.Sound`). Modelling `hash` as a function also makes it deterministic, whereas `bcrypt.hash(password, 10)` draws a fresh salt on every call, so two hashes of one password differ in the program but are equal in the model. No property relies on that equality.
- The payment gateway's reply to a checkout request and the verified webhook event are parameters.
- The media store's upload result is a parameter.
- The signed session token is a parameter.
- The id given to a new document is a parameter. Reusing an id that already exists takes the duplicate-key (catch) path.

Where the handlers' documented behaviour and their code differ, the model follows the code:

- Login gives a wrong role its own message, "Incorrect role". Unknown emails and wrong passwords share a single message.
- A completed-checkout webhook whose session matches no purchase is answered with 404.
- `removeLecture` pulls the lecture id from ONE course (`updateOne`), the first in natural order that lists it.
- `getCourseById` answers an unknown id with 400.
- `getPublishedCourse` answers an empty listing with 404.
- `getAllCourse` and `getAllPurchasedCourse` never take their 404 branch, because `find` always yields a list.
- `createLecture` stores the lecture before it looks up the course:
  - an unknown course still yields 201, with the lecture listed nowhere;
  - a malformed course id yields 500 after the lecture was stored.
- The `forgetPassword` route (`routes/user.route.js:30`) has no `:id` parameter, so the handler's id is always undefined. `findByIdAndUpdate` filters on `{_id: id}`, and with an undefined id that filter matches every user. The first user's password is then replaced, by anyone, without a session. This is recorded under "## Findings". `UserController.ForgetPasswordAsWritten` models the code as written. `UserController.ForgetPassword` models the evidently intended behaviour, where a request that names no user is a 404.

## Model

| member | source | states |
|---|---|---|
| Db.Where | controllers/course.controller.js:84 | `find` returns exactly the stored documents that satisfy the filter, each with its id, in ascending id order |
| Db.FindOne | controllers/user.controller.js:15 | `findOne` returns nothing exactly when no document matches; otherwise it returns a matching stored document that no other match precedes |
| Db.AddToSet | controllers/purchase.course.controller.js:111-117 | `$addToSet` leaves an array that already holds the id unchanged and otherwise appends the id at the end, so the old elements are kept and none is duplicated |
| Db.Pull | controllers/lecture.controller.js:200-203 | `$pull` removes every occurrence of the id and keeps every other id with its multiplicity; an array without the id is unchanged |
| Db.PullConcat | controllers/lecture.controller.js:200-203 | `$pull` works element by element: pulling from a concatenation is pulling from each part, so the remaining ids keep their order |
| Db.PullSingle | controllers/lecture.controller.js:202 | a single element is dropped by `$pull` exactly when it is the pulled id; with `PullConcat` this pins the result to the array filtered in order |
| Db.AddToSetIdempotent | controllers/purchase.course.controller.js:111-117 | a repeated `$addToSet` of the same id changes nothing |
| Db.AddToSetKeepsDistinct | controllers/purchase.course.controller.js:111-117 | `$addToSet` never introduces a duplicate into a duplicate-free array |
| Http.FindById | controllers/lecture.controller.js:145-151 | `findById` throws exactly for an uncastable id, and finds exactly the stored document under a given id |
| Http.FindForUpdate | controllers/user.controller.js:198-202 | `findByIdAndUpdate` throws for an uncastable id, acts like `findById` for a given id, and with an undefined id hits the first document in natural order (a miss only on an empty collection) |
| Text.Lower | controllers/course.controller.js:232 | the `i` regex option folds each ASCII letter independently and keeps the length |
| Text.ContainsIffOccurs | controllers/course.controller.js:232-233 | the substring test holds exactly when the pattern occurs at some index of the string |
| Text.EmptyContained | controllers/course.controller.js:221 | the default empty query occurs in every title |
| Text.Split | controllers/course.controller.js:226 | `split(",")` yields at least one part, no part holds the separator, and joining the parts with the separator gives the input back |
| Text.SplitJoin | controllers/course.controller.js:224-227 | splitting separator-free parts joined by the separator gives the parts back, so `Split` and `Join` are inverse |
| Text.PublicIdOf | controllers/course.controller.js:132 | the media public id holds neither `/` nor `.` |
| Text.PublicIdOfMediaUrl | controllers/user.controller.js:240 | for a URL `base/id.ext` with a dot- and slash-free `id`, the extracted public id is exactly `id`, whatever the base |
| LectureController.Resolve | controllers/lecture.controller.js:112 | `populate("lectures")` returns exactly the listed lectures that still exist, each with its stored record; when every listed id exists they come in list order |
| LectureController.ResolveConcat | controllers/lecture.controller.js:112 | resolution works reference by reference, so the existing lectures keep their list order whatever references dangle between them |
| LectureController.ResolveSingle | controllers/lecture.controller.js:112 | one reference resolves to its lecture when it exists and to nothing when it dangles |
| LectureController.ResolveAppend | controllers/lecture.controller.js:87-89 | appending an existing lecture id to a course's list appends that lecture to the populated list |
| LectureController.ResolveIgnoresOthers | controllers/lecture.controller.js:81-85 | storing a lecture the list does not name leaves the populated list unchanged |
| LectureController.CreateLecture | controllers/lecture.controller.js:74-98 | missing title or course id: 400 with no change; a reused lecture id: 500 with no change; otherwise a lecture with empty video fields is stored under a fresh id and appended at the end of an existing course's list, earlier entries unchanged; 201 exactly for a given id and a fresh lecture id |
| LectureController.GetCourseLecture | controllers/lecture.controller.js:106-123 | invalid id: 400; unknown course: 404; otherwise 200 listing exactly the course's listed lectures that still exist (in list order by `ResolveConcat`); the store is untouched |
| LectureController.ApplyEditIdempotent | controllers/lecture.controller.js:153-158 | applying the same partial edit twice equals applying it once |
| LectureController.EmptyEditKeepsLecture | controllers/lecture.controller.js:153-158 | an edit that supplies nothing leaves the lecture as it was |
| LectureController.EditLecture | controllers/lecture.controller.js:138-171 | invalid id: 400; unknown lecture: 404; otherwise only truthy supplied fields change and `isPreviewFree` changes only for a boolean; an existing course ends up listing the lecture, and its list is unchanged when it already did; no other lecture or course changes |
| LectureController.ListingCourse | controllers/lecture.controller.js:200-201 | the `updateOne` filter selects nothing exactly when no course lists the lecture, otherwise the first course that does |
| LectureController.PullFromFirstListing | controllers/lecture.controller.js:200-203 | at most one course changes, only by pulling the lecture id, and the first listing course no longer lists it |
| LectureController.RemoveLecture | controllers/lecture.controller.js:186-208 | unknown lecture: 404 with no change; otherwise exactly that lecture is deleted, the video is deleted remotely exactly when it has a public id, and only one listing course loses the id |
| LectureController.GetLectureById | controllers/lecture.controller.js:221-237 | invalid id: 400; unknown lecture: 404; otherwise 200 with the stored lecture |
| LectureController.TogglePublishCourse | controllers/lecture.controller.js:251-263 | unknown course: 404; otherwise the course is published exactly when `publish` is "true", nothing else changes, and the message says which |
| CourseController.CreateCourse | controllers/course.controller.js:54-71 | missing title or category: 400 and nothing created; on 201 a new unpublished course with the given title and category and the caller as creator, other courses unchanged |
| CourseController.GetAllCourse | controllers/course.controller.js:84-94 | always 200 with exactly the caller's courses, possibly none |
| CourseController.EditCourse | controllers/course.controller.js:118-158 | unknown course: 404; the old thumbnail is deleted exactly when there is one and a file came; without a file the thumbnail is kept; every supplied field (title, subtitle, description, category, level, price) is set; enrolment, lectures, creator and publication are untouched |
| CourseController.GetCourseById | controllers/course.controller.js:171-181 | unknown id: 400 (not 404); otherwise the stored course |
| Properties.EditCourseThenFetched | controllers/course.controller.js:150-158 | after a successful edit, fetching the course returns exactly the course the edit answered with |
| Properties.EditCourseIdempotent | controllers/course.controller.js:140-152 | without a new thumbnail, repeating a course edit gives the same reply, effects and store as sending it once |
| CourseController.GetPublishedCourse | controllers/course.controller.js:193-206 | 404 exactly when no course is published; otherwise exactly the published courses, in natural order |
| CourseController.Insert | controllers/course.controller.js:252-254 | inserting into a price-sorted list keeps it sorted and adds exactly that element |
| CourseController.SortByPrice | controllers/course.controller.js:246-254 | the price sort returns a permutation of its input, sorted ascending or descending, with a missing price lowest |
| CourseController.CategoryList | controllers/course.controller.js:224-227 | an empty `categories` gives no filter; otherwise separator-free parts that join back to the parameter |
| CourseController.Ordered | controllers/course.controller.js:245-254 | "lowTohigh" sorts ascending, "highTolow" descending, anything else keeps the order; always a permutation |
| CourseController.SearchCourse | controllers/course.controller.js:221-259 | every result is published, has the query in its title or subtitle ignoring case, and has a category among the listed ones ignoring case; every such course is returned; the order is the requested price order |
| CourseController.SearchIsPermutation | controllers/course.controller.js:252-254 | the search result holds the matching courses, each as often as in the natural-order listing |
| PurchaseController.ActivePurchase | controllers/purchase.course.controller.js:16-20 | the duplicate check finds nothing exactly when the user has no pending or completed purchase of the course |
| PurchaseController.CreateCheckoutSession | controllers/purchase.course.controller.js:14-80 | unknown course: 404; an active purchase: 400; no redirect URL: 400; none of these store anything; the gateway is asked exactly when the course exists and the pair has no active purchase, for price × 100 paise or a NaN amount when unpriced, which gets no response; 200 exactly when a priced course got a URL, and then one new pending purchase of that price with the session id |
| PurchaseController.RequestSession | controllers/purchase.course.controller.js:37-80 | the gateway is always asked, for price × 100 paise or NaN without a price; an unpriced request gets no response; a purchase is stored only when a priced course got a URL, which is then the answer |
| PurchaseController.PurchaseOfSession | controllers/purchase.course.controller.js:101-103 | the webhook finds nothing exactly when no purchase carries the session id, otherwise the first purchase that does |
| PurchaseController.Enroll | controllers/purchase.course.controller.js:111-117 | the user's courses and the course's students each get the other added with set-add semantics (earlier enrolments kept, no duplicate); nothing else changes |
| PurchaseController.CompletePurchase | controllers/purchase.course.controller.js:107-117 | the matched purchase, and only it, is saved completed with the gateway's total in rupees; with its course present, both enrolment lists get a set-add and every other user and course is unchanged; with its course gone nothing answers and nobody is enrolled |
| PurchaseController.StripeWebhook | controllers/purchase.course.controller.js:87-120 | bad signature: 400 and no change; another event: acknowledged, no change; unmatched session: 404, no change; otherwise the matched purchase, and only it, becomes completed with the reported total, the enrolment is set-added in both directions, and no other user or course changes |
| PurchaseController.GetCourseDetailWithPurchaseStatus | controllers/purchase.course.controller.js:128-145 | unknown course: 404; otherwise the course with `purchased` true exactly when a completed purchase by the caller exists |
| PurchaseController.GetAllPurchasedCourse | controllers/purchase.course.controller.js:154-164 | always 200 with exactly the completed purchases, each once, in natural order |
| UserController.UserByEmail | controllers/user.controller.js:15 | the lookup finds nothing exactly when the email is new; with unique emails it finds the only user with it |
| UserController.Register | controllers/user.controller.js:9-33 | a missing field: 400; a taken email: 400; neither changes the users; on 201 a new user with the given name, email and role and the hash of the password, others unchanged |
| UserController.Login | controllers/user.controller.js:104-135 | a missing field: 400; unknown email and wrong password give the identical reply; "Incorrect role" only after the password matched; 200 exactly when email, password and role all check, and only then is the one-hour token cookie set |
| UserController.Logout | controllers/user.controller.js:172-175 | always 200, and the token cookie is overwritten with "" and a zero lifetime |
| UserController.ForgetPassword | controllers/user.controller.js:189-214 | as intended: no password: 400 and no change; an id naming no user (undefined or unknown): 404 and no change; otherwise only that user's stored hash is replaced, by the hash of the new password |
| UserController.ForgetPasswordAsWritten | controllers/user.controller.js:189-214 | as written: no password: 400; a malformed id: 500; an unknown id, or no id and no users: 404; otherwise exactly one user's hash is replaced, the named one or, with no id, the first one, and 200 |
| UserController.ResetWithoutIdHitsFirstUser | controllers/user.controller.js:198-202 | as written, a reset that names no user answers 200 and replaces the first user's password |
| UserController.ForgetPasswordAgreesOnNamedIds | controllers/user.controller.js:198-209 | the written and intended handlers agree on every request that carries an id |
| UserController.ResetWithoutIdChangesNothing | controllers/user.controller.js:204-209 | intended: a reset that names no user changes nothing and does not succeed |
| UserController.UpdateProfile | controllers/user.controller.js:230-261 | unknown user: 404; the old photo is deleted exactly when there is one and a file came; without a file the photo URL is kept; only the name and photo of the caller change |
| Properties.CreateThenListLectures | controllers/lecture.controller.js:81-89 | after creating a lecture in a course, the course's lecture listing is the old listing plus the new lecture at the end |
| Properties.EditLectureIdempotent | controllers/lecture.controller.js:153-166 | repeating a lecture edit gives the same reply and the same store as sending it once |
| Properties.RemoveThenGone | controllers/lecture.controller.js:186-192 | after a removal the lecture cannot be fetched and removing it again is a 404 |
| Properties.ToggleThenPublishedListing | controllers/lecture.controller.js:258-259 | a published course appears in the published listing; an unpublished one does not |
| Properties.CreateCourseThenFound | controllers/course.controller.js:61-65 | a created course is in its creator's listing and can be fetched by id |
| Properties.DefaultSearchListsPublishedByPrice | controllers/course.controller.js:221-254 | with no query and no categories, a low-to-high search lists exactly the published courses by ascending price |
| Properties.CheckoutTwiceRejected | controllers/purchase.course.controller.js:16-26 | right after a successful checkout, a second checkout for the same user and course is a 400 that stores nothing |
| Properties.AddFreshPairKeepsOneActive | controllers/purchase.course.controller.js:16-34 | adding an active purchase for a pair with none keeps at most one active purchase per pair |
| Properties.CheckoutKeepsOneActive | controllers/purchase.course.controller.js:16-72 | checkout keeps at most one active purchase per user and course |
| Properties.CheckoutNeverFails | controllers/purchase.course.controller.js:33 | checkout never writes a failed purchase |
| Properties.WebhookNeverFails | controllers/purchase.course.controller.js:107 | the webhook never writes a failed purchase |
| Properties.CompleteKeepsOneActive | controllers/purchase.course.controller.js:107-109 | completing a non-failed purchase, whatever total the gateway reports, keeps one active purchase per pair |
| Properties.WebhookKeepsOneActive | controllers/purchase.course.controller.js:98-117 | the webhook keeps at most one active purchase per user and course |
| Properties.EnrollIdempotent | controllers/purchase.course.controller.js:111-117 | granting an enrolment twice grants it once |
| Properties.SettleIdempotent | controllers/purchase.course.controller.js:107-108 | saving the same event's completion twice gives the same purchase as once |
| Properties.CompletedStillFound | controllers/purchase.course.controller.js:101-109 | after completion, the same session still finds the same purchase, now completed with the reported total |
| Properties.EnrolledStillFound | controllers/purchase.course.controller.js:101-117 | after completion and enrolment, the session still finds the completed purchase and saving it again is a no-op |
| Properties.ReplayEnrolled | controllers/purchase.course.controller.js:98-120 | replaying a completion whose course exists gives the same reply and the same store |
| Properties.ReplayOrphaned | controllers/purchase.course.controller.js:98-112 | replaying a completion whose course is gone gives the same outcome again |
| Properties.ReplaySettled | controllers/purchase.course.controller.js:98-120 | replaying a matched completion event changes nothing |
| Properties.WebhookReplayIdempotent | controllers/purchase.course.controller.js:83-121 | any webhook event delivered twice leaves the store and the reply as one delivery does |
| Properties.PurchaseFlow | controllers/purchase.course.controller.js:29-145 | checkout followed by the matching completion webhook makes the purchase status show `purchased` and enrols the user in both directions |
| Properties.RegisterTwiceRejected | controllers/user.controller.js:15-21 | registering the same email again is a 400 and the users stay as they are |
| Properties.RegisteredUserFound | controllers/user.controller.js:15-28 | right after registration the email finds the new user |
| Properties.RegisterThenLogin | controllers/user.controller.js:22-28 | with a sound hash, the registered email, password and role log in with 200 |
| Properties.LoginHidesWhichCheckFailed | controllers/user.controller.js:111-125 | an unknown email and a wrong password give identical outcomes |
| Properties.SameEmailsKeepUnique | controllers/user.controller.js:15-21 | changes that keep every user's email keep the emails unique |
| Properties.ResetThenLogin | controllers/user.controller.js:196-202 | after a password reset, the new password logs the user in with their role |
| Properties.RegisterKeepsEmailsUnique | controllers/user.controller.js:15-28 | registration keeps email addresses unique |
| Properties.ProfileKeepsEmailsUnique | controllers/user.controller.js:251-255 | profile updates keep email addresses unique |
| Properties.WebhookKeepsEmailsUnique | controllers/purchase.course.controller.js:111-113 | enrolment through the webhook keeps email addresses unique |
| Properties.CompletionKeepsEmailsUnique | controllers/purchase.course.controller.js:107-117 | completing a purchase keeps email addresses unique |

## Left out

- bcrypt, `jsonwebtoken`, the media store (`utils/cloudinary.js` is not part of this model) and the payment gateway are oracles. Their internals, and the signature verification of webhook events, are not modelled.
- Cookie attributes: `httpOnly`, `secure` and `sameSite` are not modelled. Their values depend on the deployment environment (`utils/generateToken.js:26-35`). Only the cookie's name, value and lifetime are kept.
- `populate` and `select` shape responses and are not modelled. The one exception is `populate("lectures")` in `getCourseLecture`, which `LectureController.Resolve` models because it determines which lectures are listed. The profile update answers with the password field blanked (`select("-password")`). Registration and login return the stored record with its hash, as the source does.
- Schema defaults beyond those the handlers rely on are not modelled.
- Schema validators are not modelled; the schema files are not part of this model. An example is the fixed enumeration of user roles: `User.create` with a role outside it would throw into `register`'s log-only catch, but the model accepts any role.
- `getUserProfile` is a read-only lookup shaped by `populate` and `select`.
- `loadUserProfile` is left out because it names a model its file never imports, so it always takes its 500 path.
- Concurrency is not modelled: the model is sequential. The race between checkout's duplicate check and its insert is therefore outside it.
- Failures of the database itself (a lost connection) are not modelled. Of the database's own errors, only the CastError of a malformed id and the duplicate-key error of a reused id lead to the catch paths.
- Mongo's order of equal sort keys is not modelled. Natural order is ascending id. The price sort keeps natural order among equal prices.
- PurchaseController.StripeWebhook: the webhook's `amount = amount_total / 100` is computed as an exact rational division of the gateway's integer total in paise. The rounding of JavaScript's floating-point division is not modelled.
- PurchaseController.CreateCheckoutSession: course prices are whole rupees. `coursePrice` is a JavaScript number, and a fractional price gives a non-integral unit amount that the gateway rejects. The model covers that only as the gateway's `SessionError` reply, which ends in no response. A course with no price is modelled: the request goes out with a NaN amount (`None`), and the gateway's refusal ends in no response.
- PurchaseController.CompletePurchase: when the purchase's course no longer exists, reading its id throws outside any catch block. The model records this as `Silent`. What the server then does is not modelled, because it depends on the Express version: Express 5 answers 500, while under Express 4 the unhandled rejection ends the process on current Node. No modelled handler deletes a course, so no modelled request sequence reaches this path.
- LectureController.RemoveLecture: an undefined lecture id is answered with 404 here. `findByIdAndDelete`, like `findByIdAndUpdate`, would hit the first lecture, but the route always supplies `:lectureId`.
- CourseController.SearchCourse: the query and the categories are matched as literal strings, with ASCII case folding only. Regular-expression metacharacters in them are not interpreted.
- CourseController.EditCourse: the contract says nothing about a field the request leaves undefined. Whether the update keeps or clears it depends on Mongoose defaults.
- UserController.UpdateProfile: the contract says nothing about the name when the request carries none, for the same reason.
- Properties.WebhookKeepsOneActive: it requires that no purchase is `Failed`. The webhook completes whatever purchase the session names, so completing a failed purchase could clash with an active one. No handler ever writes `Failed` (`Properties.CheckoutNeverFails` and `Properties.WebhookNeverFails`).
- `register` tests `!password | !role` with a bitwise or. On booleans this gives the same result as `||`, and it is modelled as such.

## Findings

| source | as written | input that shows it | evidently intended | confidence | as-written member | corrected member |
|---|---|---|---|---|---|---|
| controllers/user.controller.js:198-202 | `findByIdAndUpdate(id, …)` with `id` from route parameters that `/forgetPassword` never declares, so the filter is `{_id: undefined}` and matches the first user | an unauthenticated POST `/forgetPassword` with body `{password: "x"}` while at least one user exists | a request that names no user replaces no password and is answered 404 | medium: depends on Mongoose matching every document for an undefined `_id`; not executed | UserController.ResetWithoutIdHitsFirstUser | UserController.ForgetPassword |

=== FILE: course_controller.dfy ===
/**
 * Course catalog handlers (controllers/course.controller.js): create a
 * course, list the caller's courses, edit a course (with thumbnail
 * replacement), fetch one, list the published ones, and search them.
 */
module CourseController {
  import opened Db
  import opened Models
  import opened Http
  import opened Text

  /** POST /course/create: a title and a category are required; the caller becomes the creator. */
  function CreateCourse(st: Store, caller: Id, title: Option<string>, category: Option<string>, newId: Id): (o: Outcome)
    ensures o.effects == []
    ensures o.store.users == st.users && o.store.lectures == st.lectures && o.store.purchases == st.purchases
    ensures !Filled(title) || !Filled(category) ==>
              o.response == Reply(400, "Course title and category are required", Nothing) && o.store == st
    ensures Code(o) == 201 <==> Filled(title) && Filled(category) && newId !in st.courses
    ensures Code(o) != 201 ==> o.store == st
    ensures Code(o) == 201 ==>
              && o.store.courses.Keys == st.courses.Keys + {newId}
              && (forall k :: k in st.courses ==> o.store.courses[k] == st.courses[k])
              && var c := o.store.courses[newId];
              && c.title == title.value && c.category == category.value && c.creator == caller
              && !c.isPublished && c.lectures == [] && c.enrolledStudents == []
              && o.response.payload == CourseDoc(Entry(newId, c))
  {
    if !Filled(title) || !Filled(category) then
      Respond(st, 400, "Course title and category are required", Nothing)
    else if newId in st.courses then
      Respond(st, 500, "Internal server error", Nothing)  // duplicate key on insert
    else
      var course := NewCourse(title.value, category.value, caller);
      Respond(st.(courses := st.courses[newId := course]), 201, "Course created successfully",
              CourseDoc(Entry(newId, course)))
  }

  /**
   * GET /course/courses: the caller's own courses. `find` always yields a
   * list, so the handler's "No course found" branch is never taken and an
   * empty list is a 200.
   */
  function GetAllCourse(st: Store, caller: Id): (o: Outcome)
    ensures o.store == st && o.effects == []
    ensures o.response.Reply? && o.response.status == 200 && o.response.payload.CourseDocs?
    ensures var cs := o.response.payload.courses;
            && (forall e :: e in cs <==> e.id in st.courses && e.doc == st.courses[e.id] && e.doc.creator == caller)
            && (forall i, j :: 0 <= i < j < |cs| ==> cs[i].id < cs[j].id)
  {
    var courses := Where(st.courses, (c: Course) => c.creator == caller);
    Respond(st, 200, "", CourseDocs(courses))
  }

  /** The body fields of a course edit; `None` is a field the request left out. */
  datatype CourseEdit = CourseEdit(
    title: Option<string>,
    subTitle: Option<string>,
    description: Option<string>,
    category: Option<string>,
    level: Option<string>,
    price: Option<int>
  )

  function Apply<T>(supplied: Option<T>, prev: T): T {
    if supplied.Some? then supplied.value else prev
  }

  function ApplyOption<T>(supplied: Option<T>, prev: Option<T>): Option<T> {
    if supplied.Some? then supplied else prev
  }

  /**
   * PUT /course/:courseId. With an uploaded file the old thumbnail (if any)
   * is deleted from the media store by the id taken from its URL, then the
   * upload's URL becomes the thumbnail; without a file the thumbnail stays.
   */
  function EditCourse(st: Store, courseId: IdParam, e: CourseEdit, file: Option<Upload>): (o: Outcome)
    ensures o.store.users == st.users && o.store.lectures == st.lectures && o.store.purchases == st.purchases
    ensures o.store.courses.Keys == st.courses.Keys
    ensures courseId.Malformed? ==> o == Respond(st, 500, "Internal server error", Nothing)
    ensures !courseId.Malformed? && !(courseId.Given? && courseId.id in st.courses) ==>
              o == Respond(st, 404, "Course not found", Nothing)
    ensures courseId.Given? && courseId.id in st.courses ==>
              var prev := st.courses[courseId.id];
              // the old thumbnail is deleted exactly when there is one and a new file came
              && (prev.thumbnail != "" && file.Some? ==> o.effects == [DeleteMedia(PublicIdOf(prev.thumbnail))])
              && (prev.thumbnail == "" || file.None? ==> o.effects == [])
              && (file == Some(UploadFailed) ==> o.response == Reply(500, "Internal server error", Nothing) && o.store == st)
              && (file != Some(UploadFailed) ==>
                    && o.response.Reply? && o.response.status == 200
                    && var updated := o.store.courses[courseId.id];
                    && (file.None? ==> updated.thumbnail == prev.thumbnail)
                    && (file.Some? ==> updated.thumbnail == file.value.secureUrl)
                    && (e.title.Some? ==> updated.title == e.title.value)
                    && (e.category.Some? ==> updated.category == e.category.value)
                    && (e.price.Some? ==> updated.price == e.price)
                    && (e.subTitle.Some? ==> updated.subTitle == e.subTitle)
                    && (e.description.Some? ==> updated.description == e.description)
                    && (e.level.Some? ==> updated.level == e.level)
                    && updated.creator == prev.creator && updated.isPublished == prev.isPublished
                    && updated.lectures == prev.lectures && updated.enrolledStudents == prev.enrolledStudents
                    && o.response.payload == CourseDoc(Entry(courseId.id, updated))
                    && forall k :: k in st.courses && k != courseId.id ==> o.store.courses[k] == st.courses[k])
  {
    match FindById(st.courses, courseId)
    case CastError => Respond(st, 500, "Internal server error", Nothing)
    case Miss => Respond(st, 404, "Course not found", Nothing)
    case Hit(c, prev) =>
      var effects := if file.Some? && prev.thumbnail != "" then [DeleteMedia(PublicIdOf(prev.thumbnail))] else [];
      if file == Some(UploadFailed) then
        Outcome(Reply(500, "Internal server error", Nothing), effects, st)
      else
        var thumbnail := if file.Some? then file.value.secureUrl else prev.thumbnail;
        var updated := prev.(
          title := Apply(e.title, prev.title),
          subTitle := ApplyOption(e.subTitle, prev.subTitle),
          description := ApplyOption(e.description, prev.description),
          category := Apply(e.category, prev.category),
          level := ApplyOption(e.level, prev.level),
          price := ApplyOption(e.price, prev.price),
          thumbnail := thumbnail);
        Outcome(Reply(200, "Course updated Successfully", CourseDoc(Entry(c, updated))), effects,
                st.(courses := st.courses[c := updated]))
  }

  /** GET /course/:courseId. An unknown course is answered with 400, not 404. */
  function GetCourseById(st: Store, courseId: IdParam): (o: Outcome)
    ensures o.store == st && o.effects == []
    ensures courseId.Malformed? ==> o.response == Reply(500, "Failed to get course by id", Nothing)
    ensures !courseId.Malformed? && !(courseId.Given? && courseId.id in st.courses) ==>
              o.response == Reply(400, "Course not found", Nothing)
    ensures courseId.Given? && courseId.id in st.courses ==>
              o.response == Reply(200, "", CourseDoc(Entry(courseId.id, st.courses[courseId.id])))
  {
    match FindById(st.courses, courseId)
    case CastError => Respond(st, 500, "Failed to get course by id", Nothing)
    case Miss => Respond(st, 400, "Course not found", Nothing)
    case Hit(c, course) => Respond(st, 200, "", CourseDoc(Entry(c, course)))
  }

  /** GET /course/published-courses: the published courses; none at all is a 404. */
  function GetPublishedCourse(st: Store): (o: Outcome)
    ensures o.store == st && o.effects == []
    ensures o.response.Reply?
    ensures o.response.status == 404 <==> forall k :: k in st.courses ==> !st.courses[k].isPublished
    ensures o.response.status == 404 ==> o.response == Reply(404, "No published courses found", Nothing)
    ensures o.response.status != 404 ==>
              o.response.status == 200 && o.response.payload.CourseDocs? &&
              var cs := o.response.payload.courses;
              && cs != []
              && (forall e :: e in cs <==> e.id in st.courses && e.doc == st.courses[e.id] && e.doc.isPublished)
              && (forall i, j :: 0 <= i < j < |cs| ==> cs[i].id < cs[j].id)
  {
    var published := Where(st.courses, (c: Course) => c.isPublished);
    if |published| == 0 then
      assert forall k :: k in st.courses ==> !st.courses[k].isPublished by {
        forall k | k in st.courses ensures !st.courses[k].isPublished {
          assert Entry(k, st.courses[k]) !in published;
        }
      }
      Respond(st, 404, "No published courses found", Nothing)
    else
      assert published[0] in published;
      Respond(st, 200, "", CourseDocs(published))
  }

  // ---- search ----

  /**
   * MongoDB's order on `coursePrice`: a missing price sorts before every
   * number.
   */
  predicate PriceLe(a: Option<int>, b: Option<int>) {
    a.None? || (b.Some? && a.value <= b.value)
  }

  /** `x` may come before `y` in an ascending (or, with `ascending` false, descending) price sort. */
  predicate Before(ascending: bool, x: Entry<Course>, y: Entry<Course>) {
    if ascending then PriceLe(x.doc.price, y.doc.price) else PriceLe(y.doc.price, x.doc.price)
  }

  predicate SortedByPrice(ascending: bool, s: seq<Entry<Course>>) {
    forall i, j :: 0 <= i < j < |s| ==> Before(ascending, s[i], s[j])
  }

  lemma PrependSorted(ascending: bool, x: Entry<Course>, s: seq<Entry<Course>>)
    requires SortedByPrice(ascending, s)
    requires forall j :: 0 <= j < |s| ==> Before(ascending, x, s[j])
    ensures SortedByPrice(ascending, [x] + s)
  {
    forall i, j | 0 <= i < j < |[x] + s| ensures Before(ascending, ([x] + s)[i], ([x] + s)[j]) {
      if i > 0 {
        assert ([x] + s)[i] == s[i - 1] && ([x] + s)[j] == s[j - 1];
      }
    }
  }

  function Insert(ascending: bool, x: Entry<Course>, s: seq<Entry<Course>>): (r: seq<Entry<Course>>)
    requires SortedByPrice(ascending, s)
    ensures SortedByPrice(ascending, r)
    ensures multiset(r) == multiset(s) + multiset{x}
    ensures forall y :: y in r <==> y == x || y in s
  {
    if s == [] then [x]
    else if Before(ascending, x, s[0]) then
      PrependSorted(ascending, x, s);
      [x] + s
    else
      var rest := Insert(ascending, x, s[1..]);
      assert s == [s[0]] + s[1..];
      assert forall j :: 0 <= j < |rest| ==> Before(ascending, s[0], rest[j]) by {
        forall j | 0 <= j < |rest| ensures Before(ascending, s[0], rest[j]) {
          assert rest[j] in rest;
          if rest[j] != x {
            var k :| 0 <= k < |s[1..]| && s[1..][k] == rest[j];
            assert s[k + 1] == rest[j];
          }
        }
      }
      PrependSorted(ascending, s[0], rest);
      [s[0]] + rest
  }

  /** Insertion sort by price; equal prices keep their natural order. */
  function SortByPrice(ascending: bool, s: seq<Entry<Course>>): (r: seq<Entry<Course>>)
    ensures SortedByPrice(ascending, r)
    ensures multiset(r) == multiset(s)
    ensures forall y :: y in r <==> y in s
  {
    if s == [] then []
    else
      assert s == [s[0]] + s[1..];
      Insert(ascending, s[0], SortByPrice(ascending, s[1..]))
  }

  /** The search's filter: published, query in the title or subtitle, category among the listed ones. */
  predicate Matches(c: Course, query: string, categories: seq<string>) {
    && c.isPublished
    && (ContainsIgnoreCase(c.title, query) || (c.subTitle.Some? && ContainsIgnoreCase(c.subTitle.value, query)))
    && (categories == [] || exists k :: 0 <= k < |categories| && EqualsIgnoreCase(c.category, categories[k]))
  }

  /** The `categories` query parameter as a list: split on commas, or empty when the parameter is. */
  function CategoryList(categories: string): (r: seq<string>)
    ensures categories == "" ==> r == []
    ensures categories != "" ==> |r| >= 1 && Join(r, ',') == categories
    ensures forall k :: 0 <= k < |r| ==> ',' !in r[k]
  {
    if |categories| > 0 then Split(categories, ',') else []
  }

  function OrEmpty(s: Option<string>): string {
    if s.Some? then s.value else ""
  }

  /**
   * GET /course/search?query=&categories=&sortByPrice=. Query and categories
   * are matched as literal strings, ignoring ASCII case.
   */
  function SearchCourse(st: Store, query: Option<string>, categories: Option<string>, sortByPrice: Option<string>): (o: Outcome)
    ensures o.store == st && o.effects == []
    ensures o.response.Reply? && o.response.status == 200 && o.response.payload.CourseDocs?
    ensures var cs := o.response.payload.courses;
            var q := OrEmpty(query);
            var cats := CategoryList(OrEmpty(categories));
            // every result is a stored, published course matching the query and the categories
            && (forall i :: 0 <= i < |cs| ==>
                  && cs[i].id in st.courses && cs[i].doc == st.courses[cs[i].id]
                  && cs[i].doc.isPublished
                  && (ContainsIgnoreCase(cs[i].doc.title, q) ||
                      (cs[i].doc.subTitle.Some? && ContainsIgnoreCase(cs[i].doc.subTitle.value, q)))
                  && (cats != [] ==> exists k :: 0 <= k < |cats| && EqualsIgnoreCase(cs[i].doc.category, cats[k])))
            // and every such course is among the results
            && (forall id :: id in st.courses && Matches(st.courses[id], q, cats) ==> Entry(id, st.courses[id]) in cs)
            && (sortByPrice == Some("lowTohigh") ==> SortedByPrice(true, cs))
            && (sortByPrice == Some("highTolow") ==> SortedByPrice(false, cs))
            && (sortByPrice != Some("lowTohigh") && sortByPrice != Some("highTolow") ==>
                  forall i, j :: 0 <= i < j < |cs| ==> cs[i].id < cs[j].id)
  {
    var q := OrEmpty(query);
    var cats := CategoryList(OrEmpty(categories));
    var found := Where(st.courses, (c: Course) => Matches(c, q, cats));
    Respond(st, 200, "", CourseDocs(Ordered(found, sortByPrice)))
  }

  /** The `.sort(...)` step: by price when asked for one of the two known orders, else unchanged. */
  function Ordered(found: seq<Entry<Course>>, sortByPrice: Option<string>): (r: seq<Entry<Course>>)
    ensures multiset(r) == multiset(found)
    ensures forall e :: e in r <==> e in found
    ensures sortByPrice == Some("lowTohigh") ==> SortedByPrice(true, r)
    ensures sortByPrice == Some("highTolow") ==> SortedByPrice(false, r)
    ensures sortByPrice != Some("lowTohigh") && sortByPrice != Some("highTolow") ==> r == found
  {
    if sortByPrice == Some("lowTohigh") then SortByPrice(true, found)
    else if sortByPrice == Some("highTolow") then SortByPrice(false, found)
    else found
  }

  /** The search result holds exactly the matching courses, each once: a permutation of the natural-order listing. */
  lemma SearchIsPermutation(st: Store, query: Option<string>, categories: Option<string>, sortByPrice: Option<string>)
    ensures var cs := SearchCourse(st, query, categories, sortByPrice).response.payload.courses;
            var q := OrEmpty(query);
            var cats := CategoryList(OrEmpty(categories));
            multiset(cs) == multiset(Where(st.courses, (c: Course) => Matches(c, q, cats)))
  {
  }
}

=== FILE: db.dfy ===
/**
 * A generic document collection: a map from document id to document.
 *
 * MongoDB returns the documents of an unsorted `find` in its natural order.
 * Document ids (ObjectIds) grow with their creation time, so the model uses
 * ascending id order as that natural order: `Where` lists the matching
 * documents in that order and `FindOne` returns the first of them.
 */
module Db {

  type Id = nat

  datatype Option<+T> = None | Some(value: T)

  /** A stored document together with its id. */
  datatype Entry<+T> = Entry(id: Id, doc: T)

  predicate Ascending(ids: seq<Id>) {
    forall i, j :: 0 <= i < j < |ids| ==> ids[i] < ids[j]
  }

  /** A non-empty set of ids has a least element, found by removing one element at a time. */
  lemma {:induction false} LeastOf(s: set<Id>) returns (m: Id)
    requires s != {}
    ensures m in s
    ensures forall y :: y in s ==> m <= y
    decreases |s|
  {
    var x :| x in s;
    var rest := s - {x};
    if rest == {} {
      assert s == {x};
      m := x;
    } else {
      var r := LeastOf(rest);
      m := if x < r then x else r;
      forall y | y in s
        ensures m <= y
      {
        if y != x {
          assert y in rest;
        }
      }
    }
  }

  lemma MinExists(s: set<Id>)
    requires s != {}
    ensures exists m :: m in s && forall x :: x in s ==> m <= x
  {
    var m := LeastOf(s);
  }

  /** The least id of a non-empty set. */
  function Min(s: set<Id>): (m: Id)
    requires s != {}
    ensures m in s
    ensures forall x :: x in s ==> m <= x
  {
    MinExists(s);
    var m :| m in s && forall x :: x in s ==> m <= x;
    m
  }

  /** The ids of a set, listed in ascending order. */
  function SortedKeys(s: set<Id>): (r: seq<Id>)
    ensures Ascending(r)
    ensures forall x :: x in r <==> x in s
    decreases |s|
  {
    if s == {} then []
    else
      var m := Min(s);
      var rest := SortedKeys(s - {m});
      assert forall x :: x in rest ==> m < x;
      [m] + rest
  }

  /** The documents stored under `keys` (in that order) that satisfy `p`. */
  function Select<T(==,!new)>(m: map<Id, T>, keys: seq<Id>, p: T -> bool): (r: seq<Entry<T>>)
    requires forall k :: k in keys ==> k in m
    requires Ascending(keys)
    ensures forall e :: e in r <==> e.id in keys && e.doc == m[e.id] && p(e.doc)
    ensures forall i, j :: 0 <= i < j < |r| ==> r[i].id < r[j].id
  {
    if keys == [] then []
    else
      var rest := Select(m, keys[1..], p);
      assert forall e :: e in rest ==> keys[0] < e.id by {
        forall e | e in rest ensures keys[0] < e.id {
          var k :| 0 <= k < |keys[1..]| && keys[1..][k] == e.id;
          assert keys[k + 1] == e.id;
        }
      }
      if p(m[keys[0]]) then [Entry(keys[0], m[keys[0]])] + rest else rest
  }

  /** All documents of a collection that satisfy `p`, in natural order. */
  function Where<T(==,!new)>(m: map<Id, T>, p: T -> bool): (r: seq<Entry<T>>)
    ensures forall e :: e in r <==> e.id in m && e.doc == m[e.id] && p(e.doc)
    ensures forall i, j :: 0 <= i < j < |r| ==> r[i].id < r[j].id
  {
    Select(m, SortedKeys(m.Keys), p)
  }

  /** The first document (in natural order) that satisfies `p`, if any. */
  function FindOne<T(==,!new)>(m: map<Id, T>, p: T -> bool): (r: Option<Entry<T>>)
    ensures r.None? <==> forall k :: k in m ==> !p(m[k])
    ensures r.Some? ==> r.value.id in m && r.value.doc == m[r.value.id] && p(r.value.doc)
    ensures r.Some? ==> forall k :: k in m && p(m[k]) ==> r.value.id <= k
  {
    var all := Where(m, p);
    if all == [] then
      assert forall k :: k in m ==> !p(m[k]) by {
        forall k | k in m ensures !p(m[k]) {
          assert Entry(k, m[k]) !in all;
        }
      }
      None
    else
      assert forall k :: k in m && p(m[k]) ==> all[0].id <= k by {
        forall k | k in m && p(m[k]) ensures all[0].id <= k {
          assert Entry(k, m[k]) in all;
        }
      }
      Some(all[0])
  }

  /**
   * MongoDB's `$addToSet` on an array of ids: an id already present leaves
   * the array as it is, a new one is appended.
   */
  function AddToSet(xs: seq<Id>, x: Id): (r: seq<Id>)
    ensures forall y :: y in r <==> y in xs || y == x
    ensures xs <= r && |r| <= |xs| + 1
    ensures x in xs ==> r == xs
    ensures x !in xs ==> r == xs + [x]
  {
    if x in xs then xs else xs + [x]
  }

  /** MongoDB's `$pull` of one value from an array of ids: every occurrence goes, the rest keep their order. */
  function Pull(xs: seq<Id>, x: Id): (r: seq<Id>)
    ensures forall y :: y in r <==> y in xs && y != x
    ensures x !in r
    ensures |r| <= |xs|
    ensures x !in xs ==> r == xs
    ensures multiset(r) == multiset(xs)[x := 0]
  {
    assert xs != [] ==> xs == [xs[0]] + xs[1..];
    if xs == [] then []
    else if xs[0] == x then Pull(xs[1..], x)
    else [xs[0]] + Pull(xs[1..], x)
  }

  /**
   * `$pull` works element by element: pulling from a concatenation is
   * pulling from each part, so the ids that stay keep their order.
   */
  lemma {:induction false} PullConcat(xs: seq<Id>, ys: seq<Id>, x: Id)
    ensures Pull(xs + ys, x) == Pull(xs, x) + Pull(ys, x)
    decreases |xs|
  {
    if xs == [] {
      assert xs + ys == ys;
    } else {
      assert (xs + ys)[0] == xs[0];
      assert (xs + ys)[1..] == xs[1..] + ys;
      PullConcat(xs[1..], ys, x);
      if xs[0] != x {
        assert [xs[0]] + (Pull(xs[1..], x) + Pull(ys, x)) == ([xs[0]] + Pull(xs[1..], x)) + Pull(ys, x);
      }
    }
  }

  /** Pulling from a one-element array drops exactly that element when it is the pulled id. */
  lemma PullSingle(y: Id, x: Id)
    ensures Pull([y], x) == if y == x then [] else [y]
  {
  }

  /** No id occurs twice. */
  predicate Distinct(xs: seq<Id>) {
    forall i, j :: 0 <= i < j < |xs| ==> xs[i] != xs[j]
  }

  /** Adding to a set twice is adding once: a replayed `$addToSet` changes nothing. */
  lemma AddToSetIdempotent(xs: seq<Id>, x: Id)
    ensures AddToSet(AddToSet(xs, x), x) == AddToSet(xs, x)
  {
  }

  /** `$addToSet` never introduces a duplicate. */
  lemma AddToSetKeepsDistinct(xs: seq<Id>, x: Id)
    requires Distinct(xs)
    ensures Distinct(AddToSet(xs, x))
  {
  }
}

=== FILE: http.dfy ===
/**
 * What a request handler receives and what it produces.
 *
 * Every handler is a pure function from the store and the request fields to
 * an `Outcome`: the HTTP response it sends (or `Silent` when it sends none),
 * the calls it makes to outside services, and the new store.
 */
module Http {
  import opened Db
  import opened Models

  /**
   * An id taken from the request. `Malformed` is a value Mongoose cannot cast
   * to an ObjectId (a lookup with it throws a CastError); `Absent` is an
   * undefined id, with which `findById` finds nothing.
   */
  datatype IdParam = Absent | Malformed | Given(id: Id)

  /** `mongoose.Types.ObjectId.isValid`. */
  predicate IsValidId(p: IdParam) {
    p.Given?
  }

  /** A request string the handler treats as present: defined and non-empty. */
  predicate Filled(s: Option<string>) {
    s.Some? && s.value != ""
  }

  datatype Payload =
    | Nothing
    | CourseDoc(course: Entry<Course>)
    | CourseDocs(courses: seq<Entry<Course>>)
    | LectureDoc(lecture: Entry<Lecture>)
    | LectureDocs(lectures: seq<Entry<Lecture>>)
    | UserDoc(user: Entry<User>)
    | PurchaseDocs(purchases: seq<Entry<Purchase>>)
    | CourseWithStatus(detail: Entry<Course>, purchased: bool)
    | CheckoutUrl(url: string)
    | Received

  datatype Response =
    | Reply(status: int, message: string, payload: Payload)
    | Silent   // no response: a catch block only logged, or an error escaped the handler

  /** Calls a handler makes to the media store, the payment gateway or the cookie jar. */
  datatype Effect =
    | DeleteVideo(videoId: string)
    | DeleteMedia(mediaId: string)
    // `unitAmount` is `None` when the price is missing and the amount sent is NaN
    | OpenCheckout(courseId: Id, userId: Id, productName: string, currency: string, unitAmount: Option<int>)
    | SetCookie(name: string, value: string, maxAgeMs: int)

  datatype Outcome = Outcome(response: Response, effects: seq<Effect>, store: Store)

  function Code(o: Outcome): int {
    if o.response.Reply? then o.response.status else 0
  }

  /** A reply with no outside calls. */
  function Respond(st: Store, status: int, message: string, payload: Payload): Outcome {
    Outcome(Reply(status, message, payload), [], st)
  }

  /** What the media store returned for an uploaded file. */
  datatype Upload = Uploaded(secureUrl: string) | UploadFailed

  /** The result of `findById`. */
  datatype Lookup<+T> = Hit(id: Id, doc: T) | Miss | CastError

  function FindById<T(==)>(m: map<Id, T>, p: IdParam): (r: Lookup<T>)
    ensures r.CastError? <==> p.Malformed?
    ensures r.Hit? <==> p.Given? && p.id in m
    ensures r.Hit? ==> r.id == p.id && r.doc == m[p.id]
  {
    match p
    case Absent => Miss
    case Malformed => CastError
    case Given(id) => if id in m then Hit(id, m[id]) else Miss
  }

  /**
   * The document `findByIdAndUpdate` acts on. It filters on `{_id: id}`,
   * and with an undefined id that filter matches every document, so the
   * first one in natural order is hit. Only `findById` itself turns an
   * undefined id into a miss.
   */
  function FindForUpdate<T(==,!new)>(m: map<Id, T>, p: IdParam): (r: Lookup<T>)
    ensures r.CastError? <==> p.Malformed?
    ensures p.Given? ==> r == FindById(m, p)
    ensures p.Absent? ==> (r.Miss? <==> m.Keys == {})
    ensures p.Absent? && r.Hit? ==> r.id in m && r.doc == m[r.id] && forall k :: k in m ==> r.id <= k
  {
    match p
    case Absent =>
      (match FindOne(m, (d: T) => true)
       case None => Miss
       case Some(first) => Hit(first.id, first.doc))
    case Malformed => CastError
    case Given(id) => if id in m then Hit(id, m[id]) else Miss
  }
}

=== FILE: lecture_controller.dfy ===
/**
 * Lecture handlers (controllers/lecture.controller.js): create, list per
 * course, edit, remove and fetch lectures, and toggle a course's published
 * flag. A lecture does not point at its course; a course keeps the ordered
 * list of its lecture ids.
 */
module LectureController {
  import opened Db
  import opened Models
  import opened Http

  /**
   * The lectures a course lists, in list order, as `populate("lectures")`
   * resolves them: a reference whose lecture no longer exists is dropped.
   */
  function Resolve(lectures: map<Id, Lecture>, ids: seq<Id>): (r: seq<Entry<Lecture>>)
    ensures |r| <= |ids|
    ensures forall i :: 0 <= i < |r| ==> r[i].id in ids && r[i].id in lectures && r[i].doc == lectures[r[i].id]
    ensures forall k :: k in ids && k in lectures ==> Entry(k, lectures[k]) in r
    ensures (forall k :: k in ids ==> k in lectures) ==>
              |r| == |ids| && forall i :: 0 <= i < |r| ==> r[i].id == ids[i]
  {
    if ids == [] then []
    else if ids[0] in lectures then [Entry(ids[0], lectures[ids[0]])] + Resolve(lectures, ids[1..])
    else Resolve(lectures, ids[1..])
  }

  /**
   * Resolution works reference by reference: resolving a concatenation is
   * resolving each part, so the lectures that still exist keep their list
   * order whatever references dangle around them.
   */
  lemma {:induction false} ResolveConcat(lectures: map<Id, Lecture>, a: seq<Id>, b: seq<Id>)
    ensures Resolve(lectures, a + b) == Resolve(lectures, a) + Resolve(lectures, b)
    decreases |a|
  {
    if a == [] {
      assert a + b == b;
    } else {
      assert (a + b)[0] == a[0];
      assert (a + b)[1..] == a[1..] + b;
      ResolveConcat(lectures, a[1..], b);
      if a[0] in lectures {
        var e := [Entry(a[0], lectures[a[0]])];
        assert e + (Resolve(lectures, a[1..]) + Resolve(lectures, b)) == (e + Resolve(lectures, a[1..])) + Resolve(lectures, b);
      }
    }
  }

  /** A single reference resolves to its lecture when that exists, and to nothing when it dangles. */
  lemma ResolveSingle(lectures: map<Id, Lecture>, k: Id)
    ensures Resolve(lectures, [k]) == if k in lectures then [Entry(k, lectures[k])] else []
  {
  }

  /** Resolving a list with one more (existing) lecture at its end adds that lecture at the end. */
  lemma ResolveAppend(lectures: map<Id, Lecture>, ids: seq<Id>, x: Id)
    requires x in lectures
    ensures Resolve(lectures, ids + [x]) == Resolve(lectures, ids) + [Entry(x, lectures[x])]
  {
    ResolveConcat(lectures, ids, [x]);
  }

  /** Resolution only looks at the lectures the list names. */
  lemma {:induction false} ResolveIgnoresOthers(lectures: map<Id, Lecture>, ids: seq<Id>, x: Id, l: Lecture)
    requires x !in ids
    ensures Resolve(lectures[x := l], ids) == Resolve(lectures, ids)
    decreases |ids|
  {
    if ids != [] {
      ResolveIgnoresOthers(lectures, ids[1..], x, l);
    }
  }

  /**
   * POST /course/:courseId/lecture. The lecture is stored before its course is
   * looked up: an unknown course still yields 201 (the lecture is left
   * unlisted) and a malformed course id yields 500 after the lecture was stored.
   */
  function CreateLecture(st: Store, title: Option<string>, courseId: IdParam, newId: Id): (o: Outcome)
    ensures !Filled(title) || courseId.Absent? ==>
              o.response == Reply(400, "Lecture title is required", Nothing) && o.store == st
    ensures Code(o) == 201 <==>
              Filled(title) && courseId.Given? && newId !in st.lectures
    // a reused lecture id fails the insert: 500 and nothing stored
    ensures Filled(title) && !courseId.Absent? && newId in st.lectures ==> o == Respond(st, 500, "", Nothing)
    ensures Filled(title) && !courseId.Absent? && newId !in st.lectures ==>
              && newId in o.store.lectures
              && o.store.lectures[newId] == Lecture(title.value, "", "", false)
              && (forall k :: k in st.lectures ==> k in o.store.lectures && o.store.lectures[k] == st.lectures[k])
              && o.store.lectures.Keys == st.lectures.Keys + {newId}
    ensures o.store.users == st.users && o.store.purchases == st.purchases && o.effects == []
    ensures Code(o) == 201 ==> o.response.payload == LectureDoc(Entry(newId, o.store.lectures[newId]))
    // the new id goes at the end of the course's list; earlier entries keep their places
    ensures Code(o) == 201 && courseId.id in st.courses ==>
              var before := st.courses[courseId.id];
              && courseId.id in o.store.courses
              && var after := o.store.courses[courseId.id];
              && before.lectures <= after.lectures
              && after.lectures == before.lectures + [newId]
              && after.(lectures := before.lectures) == before
    ensures forall c :: c in st.courses && !(courseId.Given? && c == courseId.id && Code(o) == 201) ==>
              c in o.store.courses && o.store.courses[c] == st.courses[c]
    ensures o.store.courses.Keys == st.courses.Keys
  {
    if !Filled(title) || courseId.Absent? then
      Respond(st, 400, "Lecture title is required", Nothing)
    else if newId in st.lectures then
      Respond(st, 500, "", Nothing)  // duplicate key on insert
    else
      var lecture := NewLecture(title.value);
      var stored := st.(lectures := st.lectures[newId := lecture]);
      match FindById(stored.courses, courseId)
      case CastError =>
        Respond(stored, 500, "", Nothing)
      case Miss =>
        Respond(stored, 201, "Lecture created successfully", LectureDoc(Entry(newId, lecture)))
      case Hit(c, course) =>
        var linked := stored.(courses := stored.courses[c := course.(lectures := course.lectures + [newId])]);
        Respond(linked, 201, "Lecture created successfully", LectureDoc(Entry(newId, lecture)))
  }

  /** GET /course/:courseId/lecture: the course's lectures in list order. */
  function GetCourseLecture(st: Store, courseId: IdParam): (o: Outcome)
    ensures o.store == st && o.effects == []
    ensures !IsValidId(courseId) ==> o.response == Reply(400, "Invalid course ID", Nothing)
    ensures IsValidId(courseId) && courseId.id !in st.courses ==>
              o.response == Reply(404, "Course not found", Nothing)
    ensures Code(o) == 200 <==> IsValidId(courseId) && courseId.id in st.courses
    ensures Code(o) == 200 ==>
              o.response.payload.LectureDocs? &&
              var listed := o.response.payload.lectures;
              && (forall i :: 0 <= i < |listed| ==>
                    listed[i].id in st.courses[courseId.id].lectures && listed[i].id in st.lectures &&
                    listed[i].doc == st.lectures[listed[i].id])
              && (forall k :: k in st.courses[courseId.id].lectures && k in st.lectures ==>
                    Entry(k, st.lectures[k]) in listed)
              && ((forall k :: k in st.courses[courseId.id].lectures ==> k in st.lectures) ==>
                    |listed| == |st.courses[courseId.id].lectures| &&
                    forall i :: 0 <= i < |listed| ==> listed[i].id == st.courses[courseId.id].lectures[i])
  {
    if !IsValidId(courseId) then
      Respond(st, 400, "Invalid course ID", Nothing)
    else if courseId.id !in st.courses then
      Respond(st, 404, "Course not found", Nothing)
    else
      Respond(st, 200, "", LectureDocs(Resolve(st.lectures, st.courses[courseId.id].lectures)))
  }

  /** The fields an edit request may carry; `isPreviewFree` is `Some` only when the request sent a boolean. */
  datatype LectureEdit = LectureEdit(
    title: Option<string>,
    videoUrl: Option<string>,
    publicId: Option<string>,
    isPreviewFree: Option<bool>
  )

  /** Applies the supplied fields of an edit to a lecture. */
  function ApplyEdit(l: Lecture, e: LectureEdit): Lecture {
    Lecture(
      if Filled(e.title) then e.title.value else l.title,
      if Filled(e.videoUrl) then e.videoUrl.value else l.videoUrl,
      if Filled(e.publicId) then e.publicId.value else l.publicId,
      if e.isPreviewFree.Some? then e.isPreviewFree.value else l.isPreviewFree)
  }

  /** An edit applied twice is the edit applied once. */
  lemma ApplyEditIdempotent(l: Lecture, e: LectureEdit)
    ensures ApplyEdit(ApplyEdit(l, e), e) == ApplyEdit(l, e)
  {
  }

  /** An edit that supplies nothing leaves the lecture as it was. */
  lemma EmptyEditKeepsLecture(l: Lecture)
    ensures ApplyEdit(l, LectureEdit(None, None, None, None)) == l
  {
  }

  /**
   * PUT /course/:courseId/lecture/:lectureId: a partial update of the
   * lecture, then a re-link into the named course's list when it is missing
   * there. The lecture is saved before the course lookup, so a malformed
   * course id yields 500 with the lecture already updated.
   */
  function EditLecture(st: Store, courseId: IdParam, lectureId: IdParam, e: LectureEdit): (o: Outcome)
    ensures o.store.users == st.users && o.store.purchases == st.purchases && o.effects == []
    ensures !IsValidId(lectureId) ==> o.response == Reply(400, "Invalid lecture ID", Nothing) && o.store == st
    ensures IsValidId(lectureId) && lectureId.id !in st.lectures ==>
              o.response == Reply(404, "Lecture not found", Nothing) && o.store == st
    ensures IsValidId(lectureId) && lectureId.id in st.lectures ==>
              var l := st.lectures[lectureId.id];
              && o.store.lectures.Keys == st.lectures.Keys
              && (forall k :: k in st.lectures && k != lectureId.id ==> o.store.lectures[k] == st.lectures[k])
              // only the fields supplied as truthy values change; the flag only when a boolean came
              && var edited := o.store.lectures[lectureId.id];
              && edited.title == (if Filled(e.title) then e.title.value else l.title)
              && edited.videoUrl == (if Filled(e.videoUrl) then e.videoUrl.value else l.videoUrl)
              && edited.publicId == (if Filled(e.publicId) then e.publicId.value else l.publicId)
              && edited.isPreviewFree == (if e.isPreviewFree.Some? then e.isPreviewFree.value else l.isPreviewFree)
              && o.response.Reply?
              && (o.response.status == 200 <==> !courseId.Malformed?)
    // the re-link: afterwards an existing course lists the lecture, and a list that already did is unchanged
    ensures Code(o) == 200 && courseId.Given? && courseId.id in st.courses ==>
              var before := st.courses[courseId.id].lectures;
              && courseId.id in o.store.courses
              && lectureId.id in o.store.courses[courseId.id].lectures
              && (lectureId.id in before ==> o.store.courses[courseId.id] == st.courses[courseId.id])
              && (lectureId.id !in before ==> o.store.courses[courseId.id].lectures == before + [lectureId.id])
    ensures o.store.courses.Keys == st.courses.Keys
    ensures forall c :: c in st.courses && !(courseId.Given? && c == courseId.id) ==>
              o.store.courses[c] == st.courses[c]
  {
    if !IsValidId(lectureId) then
      Respond(st, 400, "Invalid lecture ID", Nothing)
    else if lectureId.id !in st.lectures then
      Respond(st, 404, "Lecture not found", Nothing)
    else
      var lid := lectureId.id;
      var saved := st.(lectures := st.lectures[lid := ApplyEdit(st.lectures[lid], e)]);
      match FindById(saved.courses, courseId)
      case CastError =>
        Respond(saved, 500, "Server error", Nothing)
      case Miss =>
        Respond(saved, 200, "Lecture updated successfully", Nothing)
      case Hit(c, course) =>
        var relinked :=
          if lid in course.lectures then saved
          else saved.(courses := saved.courses[c := course.(lectures := course.lectures + [lid])]);
        Respond(relinked, 200, "Lecture updated successfully", Nothing)
  }

  /** The course `removeLecture` pulls from: the first course (in natural order) listing the lecture. */
  function ListingCourse(courses: map<Id, Course>, lid: Id): (r: Option<Entry<Course>>)
    ensures r.None? <==> forall c :: c in courses ==> lid !in courses[c].lectures
    ensures r.Some? ==> r.value.id in courses && r.value.doc == courses[r.value.id] && lid in r.value.doc.lectures
    ensures r.Some? ==> forall c :: c in courses && lid in courses[c].lectures ==> r.value.id <= c
  {
    FindOne(courses, (c: Course) => lid in c.lectures)
  }

  /** The `$pull` of `lid` applied to course `c0` alone. */
  function PullAt(courses: map<Id, Course>, c0: Id, lid: Id): (r: map<Id, Course>)
    requires c0 in courses
    ensures r.Keys == courses.Keys
    ensures forall c :: c in courses && c != c0 ==> r[c] == courses[c]
    ensures lid !in r[c0].lectures
    ensures r[c0] == courses[c0].(lectures := r[c0].lectures)
  {
    courses[c0 := courses[c0].(lectures := Pull(courses[c0].lectures, lid))]
  }

  /**
   * `Course.updateOne({lectures: lid}, {$pull: {lectures: lid}})`: the first
   * course listing the lecture loses every occurrence of it; no other course
   * changes.
   */
  function PullFromFirstListing(courses: map<Id, Course>, lid: Id): (r: map<Id, Course>)
    ensures r.Keys == courses.Keys
    ensures forall c :: c in courses && r[c] != courses[c] ==>
              lid in courses[c].lectures && r[c] == courses[c].(lectures := Pull(courses[c].lectures, lid))
    ensures forall c, c' :: c in courses && c' in courses && r[c] != courses[c] && r[c'] != courses[c'] ==> c == c'
    ensures forall c :: (c in courses && lid in courses[c].lectures &&
              forall c' :: c' in courses && lid in courses[c'].lectures ==> c <= c') ==>
              lid !in r[c].lectures
  {
    match ListingCourse(courses, lid)
    case None => courses
    case Some(entry) => PullAt(courses, entry.id, lid)
  }

  /**
   * DELETE /course/lecture/:lectureId. The lecture is deleted, its video is
   * deleted from the media store when it has one, and its id is pulled from
   * ONE course that lists it (`updateOne`); any other course listing it keeps
   * its reference.
   */
  function RemoveLecture(st: Store, lectureId: IdParam): (o: Outcome)
    ensures o.store.users == st.users && o.store.purchases == st.purchases
    ensures lectureId.Malformed? ==> o == Respond(st, 500, "Failed to delete lecture", Nothing)
    ensures !lectureId.Malformed? && !(lectureId.Given? && lectureId.id in st.lectures) ==>
              o == Respond(st, 404, "Lecture not found", Nothing)
    ensures Code(o) == 200 <==> lectureId.Given? && lectureId.id in st.lectures
    ensures Code(o) == 200 ==>
              var lid := lectureId.id;
              var victim := st.lectures[lid];
              && o.store.lectures.Keys == st.lectures.Keys - {lid}
              && (forall k :: k in o.store.lectures ==> o.store.lectures[k] == st.lectures[k])
              // remote deletion only for a lecture that has a video id
              && (victim.publicId != "" ==> o.effects == [DeleteVideo(victim.publicId)])
              && (victim.publicId == "" ==> o.effects == [])
              && o.store.courses.Keys == st.courses.Keys
              // at most one course changes, and only by losing this lecture id
              && (forall c :: c in st.courses && o.store.courses[c] != st.courses[c] ==>
                    lid in st.courses[c].lectures &&
                    o.store.courses[c] == st.courses[c].(lectures := Pull(st.courses[c].lectures, lid)))
              && (forall c, c' ::
                    (c in st.courses && c' in st.courses &&
                     o.store.courses[c] != st.courses[c] && o.store.courses[c'] != st.courses[c']) ==> c == c')
              // and when some course lists it, the first such course no longer does
              && (forall c :: (c in st.courses && lid in st.courses[c].lectures &&
                    forall c' :: c' in st.courses && lid in st.courses[c'].lectures ==> c <= c') ==>
                    lid !in o.store.courses[c].lectures)
  {
    match FindById(st.lectures, lectureId)
    case CastError => Respond(st, 500, "Failed to delete lecture", Nothing)
    case Miss => Respond(st, 404, "Lecture not found", Nothing)
    case Hit(lid, victim) =>
      var deleted := st.(lectures := st.lectures - {lid});
      var effects := if victim.publicId != "" then [DeleteVideo(victim.publicId)] else [];
      var pulled := deleted.(courses := PullFromFirstListing(deleted.courses, lid));
      Outcome(Reply(200, "Lecture removed successfully", Nothing), effects, pulled)
  }

  /** GET /course/lecture/:lectureId. */
  function GetLectureById(st: Store, lectureId: IdParam): (o: Outcome)
    ensures o.store == st && o.effects == []
    ensures !IsValidId(lectureId) ==> o.response == Reply(400, "Invalid lecture ID", Nothing)
    ensures IsValidId(lectureId) && lectureId.id !in st.lectures ==>
              o.response == Reply(404, "Lecture not found", Nothing)
    ensures IsValidId(lectureId) && lectureId.id in st.lectures ==>
              o.response == Reply(200, "", LectureDoc(Entry(lectureId.id, st.lectures[lectureId.id])))
  {
    if !IsValidId(lectureId) then
      Respond(st, 400, "Invalid lecture ID", Nothing)
    else if lectureId.id !in st.lectures then
      Respond(st, 404, "Lecture not found", Nothing)
    else
      Respond(st, 200, "", LectureDoc(Entry(lectureId.id, st.lectures[lectureId.id])))
  }

  /**
   * PATCH /course/:courseId?publish=...: the course is published exactly when
   * the query's `publish` is the string "true"; anything else unpublishes it.
   */
  function TogglePublishCourse(st: Store, courseId: IdParam, publish: Option<string>): (o: Outcome)
    ensures o.store.users == st.users && o.store.lectures == st.lectures && o.store.purchases == st.purchases
    ensures o.effects == []
    ensures courseId.Malformed? ==> o == Respond(st, 500, "Failed to update status", Nothing)
    ensures !courseId.Malformed? && !(courseId.Given? && courseId.id in st.courses) ==>
              o == Respond(st, 404, "Course not found", Nothing)
    ensures Code(o) == 200 <==> courseId.Given? && courseId.id in st.courses
    ensures Code(o) == 200 ==>
              var c := courseId.id;
              && o.store.courses.Keys == st.courses.Keys
              && (o.store.courses[c].isPublished <==> publish == Some("true"))
              && o.store.courses[c].(isPublished := st.courses[c].isPublished) == st.courses[c]
              && (forall k :: k in st.courses && k != c ==> o.store.courses[k] == st.courses[k])
              && o.response.message == (if publish == Some("true") then "Course is Published" else "Course is Unpublished")
  {
    match FindById(st.courses, courseId)
    case CastError => Respond(st, 500, "Failed to update status", Nothing)
    case Miss => Respond(st, 404, "Course not found", Nothing)
    case Hit(c, course) =>
      var updated := course.(isPublished := publish == Some("true"));
      var shown := if updated.isPublished then "Published" else "Unpublished";
      Respond(st.(courses := st.courses[c := updated]), 200, "Course is " + shown, Nothing)
  }
}

=== FILE: models.dfy ===
/**
 * The four document collections of the learning-management backend and the
 * records they hold. Optional text fields the schema leaves unset are stored
 * as "" (JavaScript treats an unset and an empty string alike in the
 * handlers' truthiness tests).
 */
module Models {
  import opened Db

  datatype User = User(
    name: string,
    email: string,
    password: string,          // the bcrypt hash, never the plaintext
    role: string,
    photoUrl: string,
    enrolledCourses: seq<Id>   // maintained with $addToSet
  )

  datatype Course = Course(
    title: string,
    subTitle: Option<string>,
    description: Option<string>,
    category: string,
    level: Option<string>,
    price: Option<int>,        // rupees; unset until the creator edits the course
    thumbnail: string,
    isPublished: bool,
    creator: Id,
    lectures: seq<Id>,         // ordered lecture references
    enrolledStudents: seq<Id>  // maintained with $addToSet
  )

  datatype Lecture = Lecture(
    title: string,
    videoUrl: string,
    publicId: string,
    isPreviewFree: bool
  )

  /** Only `pending -> completed` is ever performed; `Failed` is a status no handler produces. */
  datatype Status = Pending | Completed | Failed

  datatype Purchase = Purchase(
    courseId: Id,
    userId: Id,
    amount: Option<real>,      // rupees: the course price at checkout, the gateway's total after payment
    status: Status,
    paymentId: string          // the payment gateway's checkout-session id
  )

  datatype Store = Store(
    users: map<Id, User>,
    courses: map<Id, Course>,
    lectures: map<Id, Lecture>,
    purchases: map<Id, Purchase>
  )

  /** A purchase that blocks a new checkout for the same user and course. */
  predicate Active(p: Purchase) {
    p.status == Pending || p.status == Completed
  }

  /** A fresh course as `Course.create` stores it: unpublished, no lectures, no students. */
  function NewCourse(title: string, category: string, creator: Id): Course {
    Course(title, None, None, category, None, None, "", false, creator, [], [])
  }

  /** A fresh lecture as `Lecture.create` stores it: empty video fields, not free to preview. */
  function NewLecture(title: string): Lecture {
    Lecture(title, "", "", false)
  }

  /** A freshly registered user: no photo and no enrolments. */
  function NewUser(name: string, email: string, hash: string, role: string): User {
    User(name, email, hash, role, "", [])
  }
}

=== FILE: properties.dfy ===
/**
 * Properties that relate several handler calls: what one request leaves
 * behind for the next, replays, and the store invariants the handlers keep.
 */
module Properties {
  import opened Db
  import opened Models
  import opened Http
  import opened Text
  import opened LectureController
  import opened CourseController
  import opened PurchaseController
  import opened UserController

  // ---- lectures ----

  /** After a lecture is created in a course, listing the course's lectures shows it last, after the earlier ones. */
  lemma CreateThenListLectures(st: Store, title: Option<string>, c: Id, newId: Id)
    requires Filled(title) && c in st.courses && newId !in st.lectures
    requires newId !in st.courses[c].lectures
    ensures var o := CreateLecture(st, title, Given(c), newId);
            GetCourseLecture(o.store, Given(c)).response.payload.lectures ==
            GetCourseLecture(st, Given(c)).response.payload.lectures + [Entry(newId, NewLecture(title.value))]
  {
    var o := CreateLecture(st, title, Given(c), newId);
    var ids := st.courses[c].lectures;
    var lectures' := st.lectures[newId := NewLecture(title.value)];
    assert o.store.lectures == lectures';
    assert o.store.courses[c].lectures == ids + [newId];
    ResolveAppend(lectures', ids, newId);
    ResolveIgnoresOthers(st.lectures, ids, newId, NewLecture(title.value));
  }

  /** Sending the same lecture edit twice has the effect of sending it once. */
  lemma EditLectureIdempotent(st: Store, courseId: IdParam, lectureId: IdParam, e: LectureEdit)
    ensures var once := EditLecture(st, courseId, lectureId, e);
            EditLecture(once.store, courseId, lectureId, e) == once
  {
    if lectureId.Given? && lectureId.id in st.lectures {
      ApplyEditIdempotent(st.lectures[lectureId.id], e);
    }
  }

  /** A removed lecture can no longer be fetched, and removing it again is a 404. */
  lemma RemoveThenGone(st: Store, lid: Id)
    requires lid in st.lectures
    ensures var o := RemoveLecture(st, Given(lid));
            && GetLectureById(o.store, Given(lid)).response == Reply(404, "Lecture not found", Nothing)
            && RemoveLecture(o.store, Given(lid)).response == Reply(404, "Lecture not found", Nothing)
  {
  }

  /** Publishing a course puts it in the published listing; any other `publish` value takes it out. */
  lemma ToggleThenPublishedListing(st: Store, c: Id, publish: Option<string>)
    requires c in st.courses
    ensures var o := TogglePublishCourse(st, Given(c), publish);
            var listing := GetPublishedCourse(o.store).response;
            && (publish == Some("true") ==>
                  listing.status == 200 && Entry(c, o.store.courses[c]) in listing.payload.courses)
            && (publish != Some("true") && listing.status == 200 ==>
                  forall e :: e in listing.payload.courses ==> e.id != c)
  {
    var o := TogglePublishCourse(st, Given(c), publish);
    if publish == Some("true") {
      assert o.store.courses[c].isPublished;
    }
  }

  // ---- courses ----

  /** A created course shows up in its creator's listing and can be fetched by its id. */
  lemma CreateCourseThenFound(st: Store, caller: Id, title: Option<string>, category: Option<string>, newId: Id)
    requires Filled(title) && Filled(category) && newId !in st.courses
    ensures var o := CreateCourse(st, caller, title, category, newId);
            var created := Entry(newId, NewCourse(title.value, category.value, caller));
            && created in GetAllCourse(o.store, caller).response.payload.courses
            && GetCourseById(o.store, Given(newId)).response == Reply(200, "", CourseDoc(created))
            && GetCourseById(o.store, Given(newId)).response.payload.course.doc.creator == caller
  {
  }

  /** After an edit, fetching the course by its id returns the edited course the edit answered with. */
  lemma EditCourseThenFetched(st: Store, c: Id, e: CourseEdit, file: Option<Upload>)
    requires Code(EditCourse(st, Given(c), e, file)) == 200
    ensures var o := EditCourse(st, Given(c), e, file);
            GetCourseById(o.store, Given(c)).response == Reply(200, "", o.response.payload)
  {
  }

  /** Without a new thumbnail, sending the same course edit twice has the effect of sending it once. */
  lemma EditCourseIdempotent(st: Store, courseId: IdParam, e: CourseEdit)
    ensures var once := EditCourse(st, courseId, e, None);
            EditCourse(once.store, courseId, e, None) == once
  {
  }

  /**
   * A search with no query, no categories and an ascending price sort lists
   * exactly the published courses, cheapest first.
   */
  lemma DefaultSearchListsPublishedByPrice(st: Store)
    ensures var cs := SearchCourse(st, None, None, Some("lowTohigh")).response.payload.courses;
            && (forall e :: e in cs ==> e.doc.isPublished)
            && (forall id :: id in st.courses && st.courses[id].isPublished ==> Entry(id, st.courses[id]) in cs)
            && SortedByPrice(true, cs)
  {
    forall id | id in st.courses && st.courses[id].isPublished
      ensures Matches(st.courses[id], "", CategoryList(""))
    {
      EmptyContained(Lower(st.courses[id].title));
    }
  }

  // ---- purchases ----

  /** A second checkout for the same user and course, right after a successful one, is rejected and stores nothing. */
  lemma CheckoutTwiceRejected(st: Store, caller: Id, c: Id, id1: Id, r1: SessionReply, id2: Id, r2: SessionReply)
    requires Code(CreateCheckoutSession(st, caller, Given(c), id1, r1)) == 200
    ensures var st1 := CreateCheckoutSession(st, caller, Given(c), id1, r1).store;
            CreateCheckoutSession(st1, caller, Given(c), id2, r2) ==
              Respond(st1, 400, "Payment already in progress or course already purchased", Nothing)
  {
    var st1 := CreateCheckoutSession(st, caller, Given(c), id1, r1).store;
    assert st1.purchases[id1].userId == caller && st1.purchases[id1].courseId == c && Active(st1.purchases[id1]);
    assert HasActive(st1, caller, c);
  }

  /** Adding an active purchase for a pair with no active purchase keeps one active purchase per pair. */
  lemma AddFreshPairKeepsOneActive(ps: map<Id, Purchase>, k: Id, p: Purchase)
    requires OneActivePerPair(ps) && k !in ps
    requires forall j :: j in ps && Active(ps[j]) ==> ps[j].userId != p.userId || ps[j].courseId != p.courseId
    ensures OneActivePerPair(ps[k := p])
  {
  }

  /** Checkout keeps the invariant of at most one active purchase per user and course. */
  lemma CheckoutKeepsOneActive(st: Store, caller: Id, courseId: IdParam, newId: Id, reply: SessionReply)
    requires OneActivePerPair(st.purchases)
    ensures OneActivePerPair(CreateCheckoutSession(st, caller, courseId, newId, reply).store.purchases)
  {
    var o := CreateCheckoutSession(st, caller, courseId, newId, reply);
    if Code(o) == 200 {
      assert o.store.purchases == st.purchases[newId := o.store.purchases[newId]];
      AddFreshPairKeepsOneActive(st.purchases, newId, o.store.purchases[newId]);
    }
  }

  /** No purchase is `Failed`: no handler ever writes that status. */
  predicate NoneFailed(purchases: map<Id, Purchase>) {
    forall k :: k in purchases ==> purchases[k].status != Failed
  }

  /** Checkout only ever writes a `Pending` purchase. */
  lemma CheckoutNeverFails(st: Store, caller: Id, courseId: IdParam, newId: Id, reply: SessionReply)
    requires NoneFailed(st.purchases)
    ensures NoneFailed(CreateCheckoutSession(st, caller, courseId, newId, reply).store.purchases)
  {
  }

  /** The webhook only ever writes `Completed`. */
  lemma WebhookNeverFails(st: Store, event: Option<Event>)
    requires NoneFailed(st.purchases)
    ensures NoneFailed(StripeWebhook(st, event).store.purchases)
  {
  }

  /** Completing a purchase that is not failed keeps one active purchase per pair. */
  lemma CompleteKeepsOneActive(ps: map<Id, Purchase>, k: Id, ev: Event)
    requires OneActivePerPair(ps) && NoneFailed(ps) && k in ps
    ensures OneActivePerPair(ps[k := Settle(ps[k], ev)])
  {
    var ps' := ps[k := Settle(ps[k], ev)];
    forall p, q | p in ps' && q in ps' && Active(ps'[p]) && Active(ps'[q]) &&
                  ps'[p].userId == ps'[q].userId && ps'[p].courseId == ps'[q].courseId
      ensures p == q
    {
      assert Active(ps[p]) && Active(ps[q]);
    }
  }

  /**
   * The webhook keeps the invariant: a pending purchase only becomes
   * completed. It does not look at the status it overwrites, so the
   * invariant needs the absence of failed purchases.
   */
  lemma WebhookKeepsOneActive(st: Store, event: Option<Event>)
    requires OneActivePerPair(st.purchases) && NoneFailed(st.purchases)
    ensures OneActivePerPair(StripeWebhook(st, event).store.purchases)
  {
    if event.Some? && event.value.kind == CompletedKind && PurchaseOfSession(st, event.value.sessionId).Some? {
      CompleteKeepsOneActive(st.purchases, PurchaseOfSession(st, event.value.sessionId).value.id, event.value);
    }
  }

  /** A completed checkout that matches a purchase completes that purchase. */
  lemma WebhookCompletes(st: Store, ev: Event, id: Id, p: Purchase)
    requires ev.kind == CompletedKind && PurchaseOfSession(st, ev.sessionId) == Some(Entry(id, p))
    ensures StripeWebhook(st, Some(ev)) == CompletePurchase(st, id, p, ev)
  {
  }

  /** Granting an enrolment twice grants it once. */
  lemma EnrollIdempotent(st: Store, user: Id, course: Id)
    requires course in st.courses
    ensures Enroll(Enroll(st, user, course), user, course) == Enroll(st, user, course)
  {
    if user in st.users {
      AddToSetIdempotent(st.users[user].enrolledCourses, course);
    }
    AddToSetIdempotent(st.courses[course].enrolledStudents, user);
  }

  /** Settling an already settled purchase with the same event changes nothing. */
  lemma SettleIdempotent(p: Purchase, ev: Event)
    ensures Settle(Settle(p, ev), ev) == Settle(p, ev)
  {
  }

  /** Saving a settled purchase again with the same event leaves the store as it is. */
  lemma ResaveSettled(st: Store, id: Id, p: Purchase, ev: Event)
    requires id in st.purchases && st.purchases[id] == Settle(p, ev)
    ensures st.(purchases := st.purchases[id := Settle(Settle(p, ev), ev)]) == st
  {
    SettleIdempotent(p, ev);
    assert st.purchases[id := Settle(p, ev)] == st.purchases;
  }

  /** Completing the purchase a session names leaves the session naming it, now settled. */
  lemma CompletedStillFound(st: Store, ev: Event, id: Id, p: Purchase)
    requires PurchaseOfSession(st, ev.sessionId) == Some(Entry(id, p))
    ensures var done := st.(purchases := st.purchases[id := Settle(p, ev)]);
            PurchaseOfSession(done, ev.sessionId) == Some(Entry(id, Settle(p, ev)))
  {
    var done := st.(purchases := st.purchases[id := Settle(p, ev)]);
    var b := PurchaseOfSession(done, ev.sessionId).value.id;
    assert id <= b && b <= id;
  }

  /** A replayed completion webhook changes nothing more: the same reply, the same store, no second grant. */
  lemma WebhookReplayIdempotent(st: Store, event: Option<Event>)
    ensures var once := StripeWebhook(st, event);
            StripeWebhook(once.store, event) == once
  {
    if event.Some? && event.value.kind == CompletedKind && PurchaseOfSession(st, event.value.sessionId).Some? {
      ReplaySettled(st, event.value);
    }
  }

  /** Replaying a completion that matched a purchase: the second delivery repeats the first. */
  lemma ReplaySettled(st: Store, ev: Event)
    requires ev.kind == CompletedKind && PurchaseOfSession(st, ev.sessionId).Some?
    ensures var once := StripeWebhook(st, Some(ev));
            StripeWebhook(once.store, Some(ev)) == once
  {
    var found := PurchaseOfSession(st, ev.sessionId).value;
    if found.doc.courseId in st.courses {
      ReplayEnrolled(st, ev, found.id, found.doc);
    } else {
      ReplayOrphaned(st, ev, found.id, found.doc);
    }
  }

  /** Replay when the course exists: the grant is repeated and changes nothing. */
  lemma ReplayEnrolled(st: Store, ev: Event, id: Id, p: Purchase)
    requires ev.kind == CompletedKind && PurchaseOfSession(st, ev.sessionId) == Some(Entry(id, p))
    requires p.courseId in st.courses
    ensures var once := StripeWebhook(st, Some(ev));
            StripeWebhook(once.store, Some(ev)) == once
  {
    var done := Settle(p, ev);
    var saved := st.(purchases := st.purchases[id := done]);
    var enrolled := Enroll(saved, p.userId, p.courseId);
    WebhookCompletes(st, ev, id, p);
    EnrolledStillFound(st, ev, id, p);
    WebhookCompletes(enrolled, ev, id, done);
    SettleIdempotent(p, ev);
    EnrollIdempotent(saved, p.userId, p.courseId);
  }

  /** After completion and enrolment, the session still names the settled purchase, which is saved again unchanged. */
  lemma EnrolledStillFound(st: Store, ev: Event, id: Id, p: Purchase)
    requires PurchaseOfSession(st, ev.sessionId) == Some(Entry(id, p)) && p.courseId in st.courses
    ensures var done := Settle(p, ev);
            var enrolled := Enroll(st.(purchases := st.purchases[id := done]), p.userId, p.courseId);
            && PurchaseOfSession(enrolled, ev.sessionId) == Some(Entry(id, done))
            && enrolled.(purchases := enrolled.purchases[id := Settle(done, ev)]) == enrolled
  {
    var done := Settle(p, ev);
    var saved := st.(purchases := st.purchases[id := done]);
    CompletedStillFound(st, ev, id, p);
    var enrolled := Enroll(saved, p.userId, p.courseId);
    assert enrolled.purchases == saved.purchases;
    ResaveSettled(enrolled, id, p, ev);
  }

  /** Replay when the course is gone: the purchase is saved again as it is, and still nobody is enrolled. */
  lemma ReplayOrphaned(st: Store, ev: Event, id: Id, p: Purchase)
    requires ev.kind == CompletedKind && PurchaseOfSession(st, ev.sessionId) == Some(Entry(id, p))
    requires p.courseId !in st.courses
    ensures var once := StripeWebhook(st, Some(ev));
            StripeWebhook(once.store, Some(ev)) == once
  {
    var done := Settle(p, ev);
    var saved := st.(purchases := st.purchases[id := done]);
    WebhookCompletes(st, ev, id, p);
    assert StripeWebhook(st, Some(ev)) == Outcome(Silent, [], saved);
    CompletedStillFound(st, ev, id, p);
    WebhookCompletes(saved, ev, id, done);
    ResaveSettled(saved, id, p, ev);
  }

  /**
   * The whole purchase flow: a checkout for a priced course, then the
   * gateway's completion webhook for the session it opened, leaves the course
   * marked as purchased for the user and the enrolment recorded on both sides.
   */
  lemma PurchaseFlow(st: Store, user: Id, c: Id, newId: Id, sessionId: string, url: string, amountTotal: int)
    requires user in st.users && c in st.courses && st.courses[c].price.Some?
    requires !HasActive(st, user, c) && newId !in st.purchases && url != ""
    requires forall k :: k in st.purchases ==> st.purchases[k].paymentId != sessionId
    ensures var checkout := CreateCheckoutSession(st, user, Given(c), newId, SessionCreated(sessionId, url));
            var webhook := StripeWebhook(checkout.store, Some(Event(CompletedKind, sessionId, amountTotal)));
            var detail := GetCourseDetailWithPurchaseStatus(webhook.store, user, Given(c));
            && Code(checkout) == 200
            && webhook.response == Reply(200, "", Received)
            && detail.response.payload.purchased
            && c in webhook.store.users[user].enrolledCourses
            && user in webhook.store.courses[c].enrolledStudents
  {
    var checkout := CreateCheckoutSession(st, user, Given(c), newId, SessionCreated(sessionId, url));
    var st1 := checkout.store;
    assert st1.purchases[newId].paymentId == sessionId;
    var settled := PurchaseOfSession(st1, sessionId).value;
    assert settled.id == newId;
    var webhook := StripeWebhook(st1, Some(Event(CompletedKind, sessionId, amountTotal)));
    assert webhook.store.purchases[newId].status == Completed;
    assert webhook.store.purchases[newId].userId == user && webhook.store.purchases[newId].courseId == c;
  }

  // ---- users ----

  /** Registering the same email again is rejected and leaves the users as they are. */
  lemma RegisterTwiceRejected(st: Store, crypto: Crypto, name: Option<string>, email: Option<string>,
                              password: Option<string>, role: Option<string>, newId: Id,
                              name2: Option<string>, password2: Option<string>, role2: Option<string>, newId2: Id)
    requires Code(Register(st, crypto, name, email, password, role, newId)) == 201
    requires Filled(name2) && Filled(password2) && Filled(role2)
    ensures var st1 := Register(st, crypto, name, email, password, role, newId).store;
            Register(st1, crypto, name2, email, password2, role2, newId2) ==
              Respond(st1, 400, "User already exists with this email.", Nothing)
  {
    var st1 := Register(st, crypto, name, email, password, role, newId).store;
    assert st1.users[newId].email == email.value;
  }

  /** Right after registering, the new user is the one found by the email. */
  lemma RegisteredUserFound(st: Store, crypto: Crypto, name: Option<string>, email: Option<string>,
                            password: Option<string>, role: Option<string>, newId: Id)
    requires Code(Register(st, crypto, name, email, password, role, newId)) == 201
    ensures var st1 := Register(st, crypto, name, email, password, role, newId).store;
            UserByEmail(st1, email.value) == Some(Entry(newId, st1.users[newId]))
  {
    var st1 := Register(st, crypto, name, email, password, role, newId).store;
    assert st1.users[newId].email == email.value;
  }

  /** Right after registering, the same email, password and role log in. */
  lemma RegisterThenLogin(st: Store, crypto: Crypto, name: Option<string>, email: Option<string>,
                          password: Option<string>, role: Option<string>, newId: Id, token: string)
    requires Sound(crypto)
    requires Code(Register(st, crypto, name, email, password, role, newId)) == 201
    ensures var st1 := Register(st, crypto, name, email, password, role, newId).store;
            Code(Login(st1, crypto, email, password, role, token)) == 200
  {
    RegisteredUserFound(st, crypto, name, email, password, role, newId);
    assert crypto.compare(password.value, crypto.hash(password.value));
  }

  /** Login does not tell an unknown email from a wrong password: both get the same reply. */
  lemma LoginHidesWhichCheckFailed(st1: Store, st2: Store, crypto: Crypto, email1: string, email2: string,
                                   password1: string, password2: string, role: string, token: string)
    requires email1 != "" && email2 != "" && password1 != "" && password2 != "" && role != ""
    requires !EmailTaken(st1, email1)
    requires UserByEmail(st2, email2).Some?
    requires !crypto.compare(password2, UserByEmail(st2, email2).value.doc.password)
    ensures Login(st1, crypto, Some(email1), Some(password1), Some(role), token) ==
            Login(st2, crypto, Some(email2), Some(password2), Some(role), token).(store := st1)
  {
  }

  /** Changes that keep every user's email keep the emails unique. */
  lemma SameEmailsKeepUnique(users: map<Id, User>, users': map<Id, User>)
    requires UniqueEmails(users)
    requires users'.Keys == users.Keys
    requires forall k :: k in users ==> users'[k].email == users[k].email
    ensures UniqueEmails(users')
  {
    forall a, b | a in users' && b in users' && users'[a].email == users'[b].email
      ensures a == b
    {
      assert users[a].email == users[b].email;
    }
  }

  /** After a password reset, the new password logs the user in with their role. */
  lemma ResetThenLogin(st: Store, crypto: Crypto, u: Id, password: Option<string>, token: string)
    requires Sound(crypto) && UniqueEmails(st.users)
    requires u in st.users && st.users[u].email != "" && st.users[u].role != ""
    requires Filled(password)
    ensures var st1 := ForgetPassword(st, crypto, Given(u), password).store;
            Code(Login(st1, crypto, Some(st.users[u].email), password, Some(st.users[u].role), token)) == 200
  {
    var st1 := ForgetPassword(st, crypto, Given(u), password).store;
    SameEmailsKeepUnique(st.users, st1.users);
    assert st1.users[u].email == st.users[u].email;
    assert crypto.compare(password.value, crypto.hash(password.value));
  }

  /** Registration keeps email addresses unique. */
  lemma RegisterKeepsEmailsUnique(st: Store, crypto: Crypto, name: Option<string>, email: Option<string>,
                                  password: Option<string>, role: Option<string>, newId: Id)
    requires UniqueEmails(st.users)
    ensures UniqueEmails(Register(st, crypto, name, email, password, role, newId).store.users)
  {
    var o := Register(st, crypto, name, email, password, role, newId);
    if Code(o) == 201 {
      assert o.store.users == st.users[newId := o.store.users[newId]];
    }
  }

  /** Profile updates never touch email addresses, so they stay unique. */
  lemma ProfileKeepsEmailsUnique(st: Store, caller: Id, name: Option<string>, photo: Option<Upload>)
    requires UniqueEmails(st.users)
    ensures UniqueEmails(UpdateProfile(st, caller, name, photo).store.users)
  {
    SameEmailsKeepUnique(st.users, UpdateProfile(st, caller, name, photo).store.users);
  }

  /** Enrolment grants never touch email addresses, so they stay unique. */
  lemma WebhookKeepsEmailsUnique(st: Store, event: Option<Event>)
    requires UniqueEmails(st.users)
    ensures UniqueEmails(StripeWebhook(st, event).store.users)
  {
    if event.Some? && event.value.kind == CompletedKind && PurchaseOfSession(st, event.value.sessionId).Some? {
      var found := PurchaseOfSession(st, event.value.sessionId).value;
      CompletionKeepsEmailsUnique(st, found.id, found.doc, event.value);
    }
  }

  /** Completing a purchase changes only enrolment lists, so email addresses stay unique. */
  lemma CompletionKeepsEmailsUnique(st: Store, id: Id, p: Purchase, ev: Event)
    requires UniqueEmails(st.users)
    ensures UniqueEmails(CompletePurchase(st, id, p, ev).store.users)
  {
    var users := CompletePurchase(st, id, p, ev).store.users;
    forall k | k in st.users
      ensures users[k].email == st.users[k].email
    {
    }
    SameEmailsKeepUnique(st.users, users);
  }
}

=== FILE: purchase_controller.dfy ===
/**
 * Purchase and enrolment handlers (controllers/purchase.course.controller.js).
 *
 * A checkout stores a `Pending` purchase carrying the payment gateway's
 * session id; the gateway's signed `checkout.session.completed` webhook then
 * marks it `Completed` and enrols the user in the course in both directions.
 * The gateway is an oracle: its reply to a session request and the verified
 * webhook event are parameters.
 */
module PurchaseController {
  import opened Db
  import opened Models
  import opened Http

  /** The gateway's reply to a checkout-session request. */
  datatype SessionReply = SessionCreated(sessionId: string, url: string) | SessionError

  /** A webhook event whose signature verified; `amountTotal` is the session's total in paise. */
  datatype Event = Event(kind: string, sessionId: string, amountTotal: int)

  const CompletedKind := "checkout.session.completed"

  /** At most one active (pending or completed) purchase for each user and course. */
  predicate OneActivePerPair(purchases: map<Id, Purchase>) {
    forall p, q ::
      (p in purchases && q in purchases &&
       Active(purchases[p]) && Active(purchases[q]) &&
       purchases[p].userId == purchases[q].userId &&
       purchases[p].courseId == purchases[q].courseId) ==> p == q
  }

  predicate HasActive(st: Store, user: Id, course: Id) {
    exists k :: k in st.purchases && st.purchases[k].userId == user &&
      st.purchases[k].courseId == course && Active(st.purchases[k])
  }

  function ActivePurchase(st: Store, user: Id, course: Id): (r: Option<Entry<Purchase>>)
    ensures r.None? <==> !HasActive(st, user, course)
  {
    FindOne(st.purchases, (p: Purchase) => p.userId == user && p.courseId == course && Active(p))
  }

  /**
   * `coursePrice * 100`, the unit amount the gateway is asked for: the price
   * in paise, or `None` for a course without a price, where it is NaN.
   */
  function Paise(price: Option<int>): (r: Option<int>)
    ensures r.Some? <==> price.Some?
    ensures r.Some? ==> r.value == price.value * 100
  {
    match price
    case None => None
    case Some(p) => Some(p * 100)
  }

  /**
   * The gateway step of a checkout: a session is always requested, for the
   * price in paise. The gateway refuses a NaN amount, and that error is
   * logged with no response. Otherwise the pending purchase is stored only
   * when the gateway returned a redirect URL.
   */
  function RequestSession(st: Store, caller: Id, c: Id, course: Course, newId: Id, reply: SessionReply): (o: Outcome)
    ensures o.store.users == st.users && o.store.courses == st.courses && o.store.lectures == st.lectures
    ensures o.effects == [OpenCheckout(c, caller, course.title, "inr", Paise(course.price))]
    ensures Code(o) != 200 ==> o.store == st
    ensures course.price.None? ==> o.response == Silent
    ensures Code(o) == 200 <==> course.price.Some? && reply.SessionCreated? && reply.url != "" && newId !in st.purchases
    ensures course.price.Some? && reply.SessionCreated? && reply.url == "" ==>
              o.response == Reply(400, "Error while creating session", Nothing)
    ensures Code(o) == 200 ==>
              && o.response.payload == CheckoutUrl(reply.url)
              && o.store.purchases.Keys == st.purchases.Keys + {newId}
              && (forall k :: k in st.purchases ==> o.store.purchases[k] == st.purchases[k])
              && o.store.purchases[newId] == Purchase(c, caller, Some(course.price.value as real), Pending, reply.sessionId)
  {
    var request := [OpenCheckout(c, caller, course.title, "inr", Paise(course.price))];
    if course.price.None? then
      Outcome(Silent, request, st)  // the gateway rejects the NaN unit amount
    else
      match reply
      case SessionError => Outcome(Silent, request, st)
      case SessionCreated(sessionId, url) =>
        if url == "" then
          Outcome(Reply(400, "Error while creating session", Nothing), request, st)
        else if newId in st.purchases then
          Outcome(Silent, request, st)  // duplicate key on save
        else
          var purchase := Purchase(c, caller, Some(course.price.value as real), Pending, sessionId);
          Outcome(Reply(200, "", CheckoutUrl(url)), request, st.(purchases := st.purchases[newId := purchase]))
  }

  /**
   * `createCheckoutSession`. Unknown course: 404. An active purchase for the
   * pair: 400. Otherwise a session is requested for the price in paise; only
   * when the gateway returns a redirect URL is the pending purchase stored.
   * A course without a price makes the gateway request fail, and that
   * failure (like any other thrown error here) is logged with no response.
   */
  function CreateCheckoutSession(st: Store, caller: Id, courseId: IdParam, newId: Id, reply: SessionReply): (o: Outcome)
    ensures o.store.users == st.users && o.store.courses == st.courses && o.store.lectures == st.lectures
    ensures courseId.Malformed? ==> o == Outcome(Silent, [], st)
    ensures !courseId.Malformed? && !(courseId.Given? && courseId.id in st.courses) ==>
              o == Respond(st, 404, "Course not found!", Nothing)
    ensures courseId.Given? && courseId.id in st.courses && HasActive(st, caller, courseId.id) ==>
              o == Respond(st, 400, "Payment already in progress or course already purchased", Nothing)
    // nothing is stored unless the answer is 200
    ensures Code(o) != 200 ==> o.store == st
    ensures Code(o) == 200 <==>
              && courseId.Given? && courseId.id in st.courses
              && !HasActive(st, caller, courseId.id)
              && st.courses[courseId.id].price.Some?
              && reply.SessionCreated? && reply.url != ""
              && newId !in st.purchases
    ensures Code(o) == 200 ==>
              var course := st.courses[courseId.id];
              && o.response.payload == CheckoutUrl(reply.url)
              && o.store.purchases.Keys == st.purchases.Keys + {newId}
              && (forall k :: k in st.purchases ==> o.store.purchases[k] == st.purchases[k])
              && o.store.purchases[newId] == Purchase(courseId.id, caller, Some(course.price.value as real), Pending, reply.sessionId)
              // a successful checkout asked the gateway for the price in paise
              && o.effects == [OpenCheckout(courseId.id, caller, course.title, "inr", Some(course.price.value * 100))]
    // the gateway is asked exactly when the course exists and the pair has no active purchase
    ensures o.effects != [] <==> courseId.Given? && courseId.id in st.courses && !HasActive(st, caller, courseId.id)
    ensures o.effects != [] ==>
              o.effects == [OpenCheckout(courseId.id, caller, st.courses[courseId.id].title, "inr",
                                         Paise(st.courses[courseId.id].price))]
    // an unpriced course: the request with a NaN amount fails, and nothing answers
    ensures courseId.Given? && courseId.id in st.courses && !HasActive(st, caller, courseId.id) &&
            st.courses[courseId.id].price.None? ==>
              o.response == Silent
    ensures reply.SessionCreated? && reply.url == "" && courseId.Given? && courseId.id in st.courses &&
            !HasActive(st, caller, courseId.id) && st.courses[courseId.id].price.Some? ==>
              o.response == Reply(400, "Error while creating session", Nothing)
  {
    match FindById(st.courses, courseId)
    case CastError => Outcome(Silent, [], st)
    case Miss => Respond(st, 404, "Course not found!", Nothing)
    case Hit(c, course) =>
      if ActivePurchase(st, caller, c).Some? then
        Respond(st, 400, "Payment already in progress or course already purchased", Nothing)
      else
        RequestSession(st, caller, c, course, newId, reply)
  }

  /** The purchase the webhook settles: the first one carrying the session id. */
  function PurchaseOfSession(st: Store, sessionId: string): (r: Option<Entry<Purchase>>)
    ensures r.None? <==> forall k :: k in st.purchases ==> st.purchases[k].paymentId != sessionId
    ensures r.Some? ==> r.value.id in st.purchases && r.value.doc == st.purchases[r.value.id] &&
                        r.value.doc.paymentId == sessionId
    ensures r.Some? ==> forall k :: k in st.purchases && st.purchases[k].paymentId == sessionId ==> r.value.id <= k
  {
    FindOne(st.purchases, (p: Purchase) => p.paymentId == sessionId)
  }

  /**
   * The purchase as the webhook saves it: completed, with the gateway's
   * total converted from paise to rupees.
   */
  function Settle(p: Purchase, ev: Event): Purchase {
    p.(status := Completed, amount := Some(ev.amountTotal as real / 100.0))
  }

  /** The enrolment grant: `$addToSet` on the user's courses and on the course's students. */
  function Enroll(st: Store, user: Id, course: Id): (r: Store)
    requires course in st.courses
    ensures r.lectures == st.lectures && r.purchases == st.purchases
    ensures r.courses.Keys == st.courses.Keys && r.users.Keys == st.users.Keys
    ensures forall k :: k in st.courses && k != course ==> r.courses[k] == st.courses[k]
    ensures forall k :: k in st.users && k != user ==> r.users[k] == st.users[k]
    ensures user in st.users ==> course in r.users[user].enrolledCourses
    ensures user in r.courses[course].enrolledStudents
    // set-add semantics: earlier enrolments stay, and a present id is not added twice
    ensures user in st.users ==> r.users[user].enrolledCourses == AddToSet(st.users[user].enrolledCourses, course)
    ensures r.courses[course].enrolledStudents == AddToSet(st.courses[course].enrolledStudents, user)
    // only the two enrolment lists change
    ensures user in st.users ==> r.users[user] == st.users[user].(enrolledCourses := r.users[user].enrolledCourses)
    ensures r.courses[course] == st.courses[course].(enrolledStudents := r.courses[course].enrolledStudents)
  {
    var users :=
      if user in st.users
      then st.users[user := st.users[user].(enrolledCourses := AddToSet(st.users[user].enrolledCourses, course))]
      else st.users;
    var c := st.courses[course];
    st.(users := users, courses := st.courses[course := c.(enrolledStudents := AddToSet(c.enrolledStudents, user))])
  }

  /**
   * What completing purchase `id`, whose record was `p`, with event `ev`
   * does to the store `st`, giving `after`: the purchase, and no other, is
   * saved as completed with the gateway's total in rupees; when its course
   * exists the user and the course are added to each other's enrolment list
   * with set-add semantics; every other user, course and lecture stays.
   */
  predicate Completion(st: Store, after: Store, id: Id, p: Purchase, ev: Event) {
    && after.purchases == st.purchases[id := p.(status := Completed, amount := Some(ev.amountTotal as real / 100.0))]
    && after.lectures == st.lectures
    && after.users.Keys == st.users.Keys && after.courses.Keys == st.courses.Keys
    && (forall k :: k in st.users && k != p.userId ==> after.users[k] == st.users[k])
    && (forall k :: k in st.courses && k != p.courseId ==> after.courses[k] == st.courses[k])
    && (p.courseId !in st.courses ==> after.users == st.users && after.courses == st.courses)
    && (p.courseId in st.courses ==>
          after.courses[p.courseId] ==
            st.courses[p.courseId].(enrolledStudents := AddToSet(st.courses[p.courseId].enrolledStudents, p.userId)))
    && (p.courseId in st.courses && p.userId in st.users ==>
          after.users[p.userId] ==
            st.users[p.userId].(enrolledCourses := AddToSet(st.users[p.userId].enrolledCourses, p.courseId)))
  }

  /**
   * The completion of the purchase a session matched: it is saved as
   * completed, then the enrolment is granted in both directions. When the
   * purchase's course no longer exists the handler throws after the save and
   * before enrolling anyone. No catch block surrounds that code, so the
   * error escapes the handler; the model records only that the handler
   * itself sends nothing (`Silent`).
   */
  function CompletePurchase(st: Store, id: Id, p: Purchase, ev: Event): (o: Outcome)
    ensures o.effects == [] && o.store.lectures == st.lectures
    ensures o.store.users.Keys == st.users.Keys && o.store.courses.Keys == st.courses.Keys
    // the purchase is completed with the gateway's total, and no other purchase changes
    ensures o.store.purchases == st.purchases[id := p.(status := Completed, amount := Some(ev.amountTotal as real / 100.0))]
    ensures p.courseId in st.courses <==> o.response == Reply(200, "", Received)
    ensures p.courseId !in st.courses ==> o.response == Silent && o.store.users == st.users && o.store.courses == st.courses
    ensures Completion(st, o.store, id, p, ev)
    // every user and course but the two enrolled ones stays as it was
    ensures forall k :: k in st.users && k != p.userId ==> o.store.users[k] == st.users[k]
    ensures forall k :: k in st.courses && k != p.courseId ==> o.store.courses[k] == st.courses[k]
    // enrolment in both directions, with set-add semantics
    ensures p.courseId in st.courses ==>
              o.store.courses[p.courseId] ==
                st.courses[p.courseId].(enrolledStudents := AddToSet(st.courses[p.courseId].enrolledStudents, p.userId))
    ensures p.courseId in st.courses && p.userId in st.users ==>
              o.store.users[p.userId] ==
                st.users[p.userId].(enrolledCourses := AddToSet(st.users[p.userId].enrolledCourses, p.courseId))
  {
    var saved := st.(purchases := st.purchases[id := Settle(p, ev)]);
    if p.courseId !in saved.courses then
      Outcome(Silent, [], saved)  // populate("courseId") gave null; reading its _id throws
    else
      Respond(Enroll(saved, p.userId, p.courseId), 200, "", Received)
  }

  /**
   * `stripeWebhook`. A failed signature check is a 400 and any event
   * other than a completed checkout is acknowledged untouched. A completed
   * checkout whose session matches no purchase is a 404; otherwise the
   * purchase is completed and the user enrolled.
   */
  function StripeWebhook(st: Store, event: Option<Event>): (o: Outcome)
    ensures o.effects == []
    ensures o.store.lectures == st.lectures
    ensures o.store.users.Keys == st.users.Keys && o.store.courses.Keys == st.courses.Keys
    ensures event.None? ==> o.response == Reply(400, "Webhook Error", Nothing) && o.store == st
    ensures event.Some? && event.value.kind != CompletedKind ==> o.response == Reply(200, "", Received) && o.store == st
    ensures event.Some? && event.value.kind == CompletedKind &&
            (forall k :: k in st.purchases ==> st.purchases[k].paymentId != event.value.sessionId) ==>
              o.response == Reply(404, "", Nothing) && o.store == st
    ensures Code(o) != 200 ==> o.store.users == st.users && o.store.courses == st.courses
    ensures event.Some? && event.value.kind == CompletedKind && PurchaseOfSession(st, event.value.sessionId).Some? ==>
              var settled := PurchaseOfSession(st, event.value.sessionId).value;
              && Completion(st, o.store, settled.id, settled.doc, event.value)
              && (settled.doc.courseId in st.courses <==> o.response == Reply(200, "", Received))
  {
    match event
    case None => Respond(st, 400, "Webhook Error", Nothing)
    case Some(ev) =>
      if ev.kind != CompletedKind then
        Respond(st, 200, "", Received)
      else
        match PurchaseOfSession(st, ev.sessionId)
        case None => Respond(st, 404, "", Nothing)
        case Some(settled) => CompletePurchase(st, settled.id, settled.doc, ev)
  }

  /** `getCourseDetailWithPurchaseStatus`: `purchased` is whether a completed purchase exists. */
  function GetCourseDetailWithPurchaseStatus(st: Store, caller: Id, courseId: IdParam): (o: Outcome)
    ensures o.store == st && o.effects == []
    ensures courseId.Malformed? ==> o.response == Reply(500, "Server error", Nothing)
    ensures !courseId.Malformed? && !(courseId.Given? && courseId.id in st.courses) ==>
              o.response == Reply(404, "course not found!", Nothing)
    ensures courseId.Given? && courseId.id in st.courses ==>
              && o.response.Reply? && o.response.status == 200
              && o.response.payload.CourseWithStatus?
              && o.response.payload.detail == Entry(courseId.id, st.courses[courseId.id])
              && (o.response.payload.purchased <==>
                    exists k :: k in st.purchases && st.purchases[k].userId == caller &&
                      st.purchases[k].courseId == courseId.id && st.purchases[k].status == Completed)
  {
    match FindById(st.courses, courseId)
    case CastError => Respond(st, 500, "Server error", Nothing)
    case Miss => Respond(st, 404, "course not found!", Nothing)
    case Hit(c, course) =>
      var completed := FindOne(st.purchases, (p: Purchase) => p.userId == caller && p.courseId == c && p.status == Completed);
      Respond(st, 200, "", CourseWithStatus(Entry(c, course), completed.Some?))
  }

  /**
   * `getAllPurchasedCourse`: every completed purchase. `find` always yields a list, so
   * the handler's 404 branch is never taken.
   */
  function GetAllPurchasedCourse(st: Store): (o: Outcome)
    ensures o.store == st && o.effects == []
    ensures o.response.Reply? && o.response.status == 200 && o.response.payload.PurchaseDocs?
    ensures var ps := o.response.payload.purchases;
            forall e :: e in ps <==> e.id in st.purchases && e.doc == st.purchases[e.id] && e.doc.status == Completed
    // in natural order, so each completed purchase appears once
    ensures var ps := o.response.payload.purchases;
            forall i, j :: 0 <= i < j < |ps| ==> ps[i].id < ps[j].id
  {
    Respond(st, 200, "", PurchaseDocs(Where(st.purchases, (p: Purchase) => p.status == Completed)))
  }
}

=== FILE: text.dfy ===
/**
 * The string operations the handlers use: ASCII case folding, substring
 * search, JavaScript's `split` on one character, and the extraction of a
 * media id from a media-store URL.
 */
module Text {

  function LowerChar(c: char): char {
    if 'A' <= c <= 'Z' then (c as int + 32) as char else c
  }

  /** Case folding of the ASCII letters; every other character is kept. */
  function Lower(s: string): (r: string)
    ensures |r| == |s|
    ensures forall i :: 0 <= i < |s| ==> r[i] == LowerChar(s[i])
  {
    if s == [] then [] else [LowerChar(s[0])] + Lower(s[1..])
  }

  predicate EqualsIgnoreCase(a: string, b: string) {
    Lower(a) == Lower(b)
  }

  /** `p` occurs in `s` starting at index `i`. */
  predicate OccursAt(s: string, p: string, i: int) {
    0 <= i && i + |p| <= |s| && s[i..i + |p|] == p
  }

  /** Substring search, by scanning the suffixes of `s`. */
  predicate Contains(s: string, p: string)
    decreases |s|
  {
    p <= s || (s != [] && Contains(s[1..], p))
  }

  /** `Contains` holds exactly when `p` occurs somewhere in `s`. */
  lemma {:induction false} ContainsIffOccurs(s: string, p: string)
    ensures Contains(s, p) <==> exists i :: OccursAt(s, p, i)
    decreases |s|
  {
    if p <= s {
      assert OccursAt(s, p, 0);
    } else if s == [] {
      assert forall i :: !OccursAt(s, p, i);
    } else {
      ContainsIffOccurs(s[1..], p);
      assert !OccursAt(s, p, 0);
      forall i | 1 <= i
        ensures OccursAt(s, p, i) == OccursAt(s[1..], p, i - 1)
      {
        if i + |p| <= |s| {
          assert s[1..][i - 1..i - 1 + |p|] == s[i..i + |p|];
        }
      }
      if Contains(s[1..], p) {
        var i :| OccursAt(s[1..], p, i);
        assert OccursAt(s, p, i + 1);
      }
    }
  }

  /** The empty string occurs in every string: an empty search query matches everything. */
  lemma EmptyContained(s: string)
    ensures Contains(s, "")
  {
  }

  predicate ContainsIgnoreCase(s: string, p: string) {
    Contains(Lower(s), Lower(p))
  }

  /** The index of the first `c` in `s`. */
  function IndexOf(s: string, c: char): (i: nat)
    requires c in s
    ensures i < |s| && s[i] == c
    ensures c !in s[..i]
  {
    if s[0] == c then 0
    else
      var j := IndexOf(s[1..], c);
      assert s[..j + 1] == [s[0]] + s[1..][..j];
      j + 1
  }

  /** The inverse of `Split`: the parts with one `sep` between neighbours. */
  function Join(parts: seq<string>, sep: char): string
    requires |parts| >= 1
  {
    if |parts| == 1 then parts[0] else parts[0] + [sep] + Join(parts[1..], sep)
  }

  /** JavaScript's `s.split(sep)` for a one-character separator. */
  function Split(s: string, sep: char): (parts: seq<string>)
    ensures |parts| >= 1
    ensures forall k :: 0 <= k < |parts| ==> sep !in parts[k]
    ensures Join(parts, sep) == s
    decreases |s|
  {
    if sep !in s then [s]
    else
      var i := IndexOf(s, sep);
      var rest := Split(s[i + 1..], sep);
      assert s == s[..i] + [sep] + s[i + 1..];
      [s[..i]] + rest
  }

  /** Splitting a joined list of separator-free parts gives the parts back. */
  lemma {:induction false} SplitJoin(parts: seq<string>, sep: char)
    requires |parts| >= 1
    requires forall k :: 0 <= k < |parts| ==> sep !in parts[k]
    ensures Split(Join(parts, sep), sep) == parts
    decreases |parts|
  {
    if |parts| == 1 {
      assert sep !in parts[0];
    } else {
      var first, tail := parts[0], parts[1..];
      assert sep !in first;
      assert forall k :: 0 <= k < |tail| ==> sep !in tail[k] by {
        forall k | 0 <= k < |tail| ensures sep !in tail[k] {
          assert tail[k] == parts[k + 1];
        }
      }
      var rest := Join(tail, sep);
      assert Join(parts, sep) == first + [sep] + rest;
      SplitAfterPart(first, sep, rest);
      SplitJoin(tail, sep);
      assert parts == [first] + tail;
    }
  }

  /** A separator-free part followed by a separator is split off as the first part. */
  lemma SplitAfterPart(a: string, sep: char, b: string)
    requires sep !in a
    ensures Split(a + [sep] + b, sep) == [a] + Split(b, sep)
  {
    var s := a + [sep] + b;
    assert s[..|a|] == a && s[|a|] == sep && s[|a| + 1..] == b;
    SplitAtFirst(s, sep, |a|);
  }

  function Last<T>(xs: seq<T>): T
    requires |xs| > 0
  {
    xs[|xs| - 1]
  }

  /**
   * `url.split("/").pop().split(".")[0]`: the last `/`-separated segment of
   * the URL, cut at its first `.`.
   */
  function PublicIdOf(url: string): (id: string)
    ensures '/' !in id && '.' !in id
  {
    Split(Last(Split(url, '/')), '.')[0]
  }

  /** The first occurrence is the only index with `c` there and no `c` before it. */
  lemma IndexOfUnique(s: string, c: char, i: nat)
    requires i < |s| && s[i] == c && c !in s[..i]
    ensures IndexOf(s, c) == i
  {
  }

  /** Splitting at the first separator: the part before it, then the parts of the rest. */
  lemma SplitAtFirst(s: string, sep: char, i: nat)
    requires i < |s| && s[i] == sep && sep !in s[..i]
    ensures Split(s, sep) == [s[..i]] + Split(s[i + 1..], sep)
  {
    IndexOfUnique(s, sep, i);
  }

  lemma LastOfCons<T>(x: T, xs: seq<T>)
    requires |xs| > 0
    ensures Last([x] + xs) == Last(xs)
  {
  }

  /** Anything in front of the last separator does not change the last part. */
  lemma {:induction false} LastPartAfterSeparator(a: string, sep: char, b: string)
    ensures Last(Split(a + [sep] + b, sep)) == Last(Split(b, sep))
    decreases |a|
  {
    var s := a + [sep] + b;
    if sep !in a {
      assert s[..|a|] == a && s[|a|] == sep;
      assert s[|a| + 1..] == b;
      SplitAtFirst(s, sep, |a|);
      LastOfCons(a, Split(b, sep));
    } else {
      var j := IndexOf(a, sep);
      assert s[..j] == a[..j] && s[j] == sep;
      var t := a[j + 1..] + [sep] + b;
      assert s[j + 1..] == t;
      SplitAtFirst(s, sep, j);
      LastOfCons(a[..j], Split(t, sep));
      LastPartAfterSeparator(a[j + 1..], sep, b);
    }
  }

  /**
   * A media-store URL `<base>/<id>.<ext>` yields back `id`: the extraction
   * recovers the media id when the id holds no `/` or `.` and the extension
   * holds no `/`.
   */
  lemma PublicIdOfMediaUrl(base: string, id: string, ext: string)
    requires '/' !in id && '.' !in id && '/' !in ext
    ensures PublicIdOf(base + "/" + id + "." + ext) == id
  {
    var tail := id + "." + ext;
    assert base + "/" + id + "." + ext == base + ['/'] + tail;
    LastPartAfterSeparator(base, '/', tail);
    assert '/' !in tail;
    SplitAfterPart(id, '.', ext);
  }
}

=== FILE: user_controller.dfy ===
/**
 * User directory handlers (controllers/user.controller.js): registration,
 * login, logout, password reset and profile update.
 *
 * bcrypt is an oracle: a `Crypto` value supplies `hash` and `compare`, and
 * the only thing assumed of them, where a property needs it, is `Sound`:
 * a password matches its own hash. The session token that `jsonwebtoken`
 * signs is a parameter too.
 */
module UserController {
  import opened Db
  import opened Models
  import opened Http
  import opened Text

  datatype Crypto = Crypto(hash: string -> string, compare: (string, string) -> bool)

  /** A password always matches its own hash. */
  ghost predicate Sound(c: Crypto) {
    forall p :: c.compare(p, c.hash(p))
  }

  /** No two users share an email address. */
  predicate UniqueEmails(users: map<Id, User>) {
    forall a, b :: (a in users && b in users && users[a].email == users[b].email) ==> a == b
  }

  predicate EmailTaken(st: Store, email: string) {
    exists k :: k in st.users && st.users[k].email == email
  }

  /** `User.findOne({email})`: the first user with that address. */
  function UserByEmail(st: Store, email: string): (r: Option<Entry<User>>)
    ensures r.None? <==> !EmailTaken(st, email)
    ensures r.Some? ==> r.value.id in st.users && r.value.doc == st.users[r.value.id] && r.value.doc.email == email
    ensures r.Some? && UniqueEmails(st.users) ==> forall k :: k in st.users && st.users[k].email == email ==> k == r.value.id
  {
    FindOne(st.users, (u: User) => u.email == email)
  }

  /** The session cookie's lifetime: one hour, in milliseconds. */
  const TokenMaxAgeMs := 60 * 60 * 1000

  /**
   * `register`: name, email, password and role are all required and the
   * email must be new. The stored password is the hash of the one given.
   */
  function Register(st: Store, crypto: Crypto, name: Option<string>, email: Option<string>,
                    password: Option<string>, role: Option<string>, newId: Id): (o: Outcome)
    ensures o.effects == []
    ensures o.store.courses == st.courses && o.store.lectures == st.lectures && o.store.purchases == st.purchases
    ensures !Filled(name) || !Filled(email) || !Filled(password) || !Filled(role) ==>
              o == Respond(st, 400, "All fields are required", Nothing)
    ensures Filled(name) && Filled(email) && Filled(password) && Filled(role) && EmailTaken(st, email.value) ==>
              o == Respond(st, 400, "User already exists with this email.", Nothing)
    ensures Code(o) != 201 ==> o.store == st
    ensures Code(o) == 201 <==>
              Filled(name) && Filled(email) && Filled(password) && Filled(role) &&
              !EmailTaken(st, email.value) && newId !in st.users
    ensures Code(o) == 201 ==>
              && o.store.users.Keys == st.users.Keys + {newId}
              && (forall k :: k in st.users ==> o.store.users[k] == st.users[k])
              && var u := o.store.users[newId];
              && u.name == name.value && u.email == email.value && u.role == role.value
              && u.password == crypto.hash(password.value)
              && u.enrolledCourses == []
              && o.response.payload == UserDoc(Entry(newId, u))
  {
    if !Filled(name) || !Filled(email) || !Filled(password) || !Filled(role) then
      Respond(st, 400, "All fields are required", Nothing)
    else if UserByEmail(st, email.value).Some? then
      Respond(st, 400, "User already exists with this email.", Nothing)
    else if newId in st.users then
      Outcome(Silent, [], st)  // duplicate key; the catch block only logs
    else
      var user := NewUser(name.value, email.value, crypto.hash(password.value), role.value);
      Respond(st.(users := st.users[newId := user]), 201, "User registered successfully", UserDoc(Entry(newId, user)))
  }

  /**
   * `login`: the checks run in order — all fields present, a user with the
   * email, the password matching its hash, the role equal. An unknown email
   * and a wrong password get the same reply; a wrong role is told apart.
   */
  function Login(st: Store, crypto: Crypto, email: Option<string>, password: Option<string>,
                 role: Option<string>, token: string): (o: Outcome)
    ensures o.store == st
    ensures !Filled(email) || !Filled(password) || !Filled(role) ==>
              o == Respond(st, 400, "All fields are required", Nothing)
    ensures Filled(email) && Filled(password) && Filled(role) && !EmailTaken(st, email.value) ==>
              o == Respond(st, 400, "Incorrect email or password", Nothing)
    ensures Filled(email) && Filled(password) && Filled(role) && UserByEmail(st, email.value).Some? ==>
              var u := UserByEmail(st, email.value).value.doc;
              && (!crypto.compare(password.value, u.password) ==>
                    o == Respond(st, 400, "Incorrect email or password", Nothing))
              && (crypto.compare(password.value, u.password) && u.role != role.value ==>
                    o == Respond(st, 400, "Incorrect role", Nothing))
    // success exactly when the email is known, the password matches and the role is equal
    ensures Code(o) == 200 <==>
              && Filled(email) && Filled(password) && Filled(role)
              && UserByEmail(st, email.value).Some?
              && crypto.compare(password.value, UserByEmail(st, email.value).value.doc.password)
              && UserByEmail(st, email.value).value.doc.role == role.value
    ensures Code(o) == 200 ==>
              && o.effects == [SetCookie("token", token, TokenMaxAgeMs)]
              && o.response.payload == UserDoc(UserByEmail(st, email.value).value)
    ensures Code(o) != 200 ==> o.effects == []
    // the wrong-role reply only comes after the password matched
    ensures o.response == Reply(400, "Incorrect role", Nothing) ==>
              UserByEmail(st, email.value).Some? &&
              crypto.compare(password.value, UserByEmail(st, email.value).value.doc.password)
  {
    if !Filled(email) || !Filled(password) || !Filled(role) then
      Respond(st, 400, "All fields are required", Nothing)
    else
      match UserByEmail(st, email.value)
      case None => Respond(st, 400, "Incorrect email or password", Nothing)
      case Some(found) =>
        if !crypto.compare(password.value, found.doc.password) then
          Respond(st, 400, "Incorrect email or password", Nothing)
        else if found.doc.role != role.value then
          Respond(st, 400, "Incorrect role", Nothing)
        else
          Outcome(Reply(200, "Welcome back " + found.doc.name, UserDoc(found)),
                  [SetCookie("token", token, TokenMaxAgeMs)], st)
  }

  /** `logout`: always 200, overwriting the `token` cookie with an empty, already expired value. */
  function Logout(st: Store): (o: Outcome)
    ensures o.store == st
    ensures o.response.Reply? && o.response.status == 200
    ensures o.effects == [SetCookie("token", "", 0)]
  {
    Outcome(Reply(200, "logged out successfully", Nothing), [SetCookie("token", "", 0)], st)
  }

  /**
   * `forgetPassword` as written. The id comes from the route's parameters,
   * but the route (`/forgetPassword`) declares none, so it is always
   * undefined; `findByIdAndUpdate` then matches the first user, whose hash
   * is replaced. No proof of identity is asked for.
   */
  function ForgetPasswordAsWritten(st: Store, crypto: Crypto, id: IdParam, password: Option<string>): (o: Outcome)
    ensures o.effects == []
    ensures o.store.courses == st.courses && o.store.lectures == st.lectures && o.store.purchases == st.purchases
    ensures !Filled(password) ==> o == Respond(st, 400, "Password is required", Nothing)
    ensures Filled(password) && id.Malformed? ==> o == Respond(st, 500, "Internal server error", Nothing)
    ensures Filled(password) && ((id.Given? && id.id !in st.users) || (id.Absent? && st.users == map[])) ==>
              o == Respond(st, 404, "User not found", Nothing)
    ensures Code(o) == 200 <==> Filled(password) && ((id.Given? && id.id in st.users) || (id.Absent? && st.users.Keys != {}))
    ensures Code(o) != 200 ==> o.store == st
    ensures Code(o) == 200 ==>
              && o.store.users.Keys == st.users.Keys
              // exactly one user's hash is replaced: the named one, or with no id the first one
              && exists u :: u in st.users &&
                   (id.Given? ==> u == id.id) &&
                   (id.Absent? ==> forall k :: k in st.users ==> u <= k) &&
                   o.store.users == st.users[u := st.users[u].(password := crypto.hash(password.value))]
  {
    if !Filled(password) then
      Respond(st, 400, "Password is required", Nothing)
    else
      var hashed := crypto.hash(password.value);
      match FindForUpdate(st.users, id)
      case CastError => Respond(st, 500, "Internal server error", Nothing)
      case Miss => Respond(st, 404, "User not found", Nothing)
      case Hit(u, user) =>
        Respond(st.(users := st.users[u := user.(password := hashed)]), 200, "Password updated successfully", Nothing)
  }

  /**
   * As written, a reset request that names no user replaces the first
   * user's password, whoever sent it.
   */
  lemma ResetWithoutIdHitsFirstUser(st: Store, crypto: Crypto, password: Option<string>, first: Id)
    requires Filled(password)
    requires first in st.users && forall k :: k in st.users ==> first <= k
    ensures var o := ForgetPasswordAsWritten(st, crypto, Absent, password);
            && Code(o) == 200
            && o.store.users[first].password == crypto.hash(password.value)
  {
    var o := ForgetPasswordAsWritten(st, crypto, Absent, password);
    var u :| u in st.users && (forall k :: k in st.users ==> u <= k) &&
             o.store.users == st.users[u := st.users[u].(password := crypto.hash(password.value))];
    assert u <= first && first <= u;
  }

  /**
   * `forgetPassword` as evidently intended: it replaces the stored hash of
   * the user the id names, and a request that names no user changes
   * nothing (404).
   */
  function ForgetPassword(st: Store, crypto: Crypto, id: IdParam, password: Option<string>): (o: Outcome)
    ensures o.effects == []
    ensures o.store.courses == st.courses && o.store.lectures == st.lectures && o.store.purchases == st.purchases
    ensures !Filled(password) ==> o == Respond(st, 400, "Password is required", Nothing)
    ensures Filled(password) && id.Malformed? ==> o == Respond(st, 500, "Internal server error", Nothing)
    ensures Filled(password) && !id.Malformed? && !(id.Given? && id.id in st.users) ==>
              o == Respond(st, 404, "User not found", Nothing)
    ensures Code(o) == 200 <==> Filled(password) && id.Given? && id.id in st.users
    ensures Code(o) == 200 ==>
              && o.store.users.Keys == st.users.Keys
              && o.store.users[id.id] == st.users[id.id].(password := crypto.hash(password.value))
              && forall k :: k in st.users && k != id.id ==> o.store.users[k] == st.users[k]
  {
    if !Filled(password) then
      Respond(st, 400, "Password is required", Nothing)
    else
      var hashed := crypto.hash(password.value);
      match FindById(st.users, id)
      case CastError => Respond(st, 500, "Internal server error", Nothing)
      case Miss => Respond(st, 404, "User not found", Nothing)
      case Hit(u, user) =>
        Respond(st.(users := st.users[u := user.(password := hashed)]), 200, "Password updated successfully", Nothing)
  }

  /** The two agree on every request that names a user; they differ only on one that does not. */
  lemma ForgetPasswordAgreesOnNamedIds(st: Store, crypto: Crypto, id: IdParam, password: Option<string>)
    requires !id.Absent?
    ensures ForgetPasswordAsWritten(st, crypto, id, password) == ForgetPassword(st, crypto, id, password)
  {
  }

  /** Intended: whoever sends a reset request without naming a user, no password changes. */
  lemma ResetWithoutIdChangesNothing(st: Store, crypto: Crypto, password: Option<string>)
    ensures ForgetPassword(st, crypto, Absent, password).store == st
    ensures Code(ForgetPassword(st, crypto, Absent, password)) != 200
  {
  }

  /** A user record as `select("-password")` returns it. */
  function WithoutPassword(u: User): User {
    u.(password := "")
  }

  /**
   * `updateProfile`: with a new photo the old one (if any) is deleted from
   * the media store and the upload's URL replaces it; without a photo the
   * old URL stays.
   */
  function UpdateProfile(st: Store, caller: Id, name: Option<string>, photo: Option<Upload>): (o: Outcome)
    ensures o.store.courses == st.courses && o.store.lectures == st.lectures && o.store.purchases == st.purchases
    ensures o.store.users.Keys == st.users.Keys
    ensures caller !in st.users ==> o == Respond(st, 404, "Profile not found", Nothing)
    // the old photo is deleted exactly when there is one and a new file came
    ensures caller in st.users && st.users[caller].photoUrl != "" && photo.Some? ==>
              o.effects == [DeleteMedia(PublicIdOf(st.users[caller].photoUrl))]
    ensures caller !in st.users || st.users[caller].photoUrl == "" || photo.None? ==> o.effects == []
    ensures caller in st.users && photo == Some(UploadFailed) ==>
              o.response == Reply(500, "Internal server error", Nothing) && o.store == st
    ensures Code(o) == 200 <==> caller in st.users && photo != Some(UploadFailed)
    ensures Code(o) == 200 ==>
              && (forall k :: k in st.users && k != caller ==> o.store.users[k] == st.users[k])
              && o.response.payload == UserDoc(Entry(caller, WithoutPassword(o.store.users[caller])))
    ensures Code(o) == 200 ==>
              var prev, updated := st.users[caller], o.store.users[caller];
              && (photo.None? ==> updated.photoUrl == prev.photoUrl)
              && (photo.Some? ==> updated.photoUrl == photo.value.secureUrl)
              && (name.Some? ==> updated.name == name.value)
              // nothing but the name and the photo changes
              && updated == prev.(name := updated.name, photoUrl := updated.photoUrl)
  {
    if caller !in st.users then
      Respond(st, 404, "Profile not found", Nothing)
    else
      var prev := st.users[caller];
      var effects := if prev.photoUrl != "" && photo.Some? then [DeleteMedia(PublicIdOf(prev.photoUrl))] else [];
      if photo == Some(UploadFailed) then
        Outcome(Reply(500, "Internal server error", Nothing), effects, st)
      else
        var photoUrl := if photo.Some? then photo.value.secureUrl else prev.photoUrl;
        var updated := prev.(name := if name.Some? then name.value else prev.name, photoUrl := photoUrl);
        Outcome(Reply(200, "Profile updated successfully", UserDoc(Entry(caller, WithoutPassword(updated)))),
                effects, st.(users := st.users[caller := updated]))
  }
}
